=== FILE: README.md ===
# SquadSave job pipeline, analytics export and client state, in Dafny

SquadSave is a group-savings dApp with a LINE bot front door. This project
models the parts of it that carry logic, and proves properties of them.

- **Backend job pipeline.** `index.js` receives LINE webhook batches and
  enqueues one `handle-line-event` job per event on the `tasks` queue. A cron
  tick in `scheduler.js` enqueues a `settle-mission` job and then a
  `send-reminder` job every minute. The worker in `worker.js` switches on the
  job name: text messages get an echo reply, and every other job only logs.
- **Analytics export.** `export-analytics.js` queries four kinds of contract
  logs: identity binder, mission factory, every mission pool, and reward
  distributor. It maps each log to a flat CSV record and concatenates the four
  lists. It then writes the CSV with a fixed 27-column header and a JSON
  summary that holds per-type counts, distinct users, distinct pools and the
  date range.
- **Achievement notification.** `AchievementNotification.tsx` holds three
  exact-match lookup tables (streak days, savings milestones, squad size). It
  also maps the notification type to an icon and a gradient.
- **Client contexts.** `wallet-context.tsx` keeps the connected account in
  step with the `walletAccount` entry of `localStorage`. `theme-context.tsx`
  keeps the `isDark` flag, the root element's `dark` class and the `darkMode`
  entry in step.

One module per source concern:

| module | file | models |
|---|---|---|
| `Options` | options.dfy | `Option`, and `Result` with thrown errors |
| `Jobs` | jobs.dfy | job names, payloads, LINE events, the queue |
| `Worker` | worker.dfy | the worker's `switch` and the echo handler |
| `Webhook` | webhook.dfy | the `/webhook/line` route and `handleEvent` |
| `Scheduler` | scheduler.dfy | the cron tick |
| `Pipeline` | pipeline.dfy | producers and worker together |
| `AnalyticsRows` | analytics_rows.dfy | record keys, the per-log mappers, the CSV header |
| `AnalyticsExport` | analytics_export.dfy | the four exporters and their merge |
| `AnalyticsSummary` | analytics_summary.dfy | the summary statistics and `main` |
| `Achievements` | achievements.dfy | lookup tables, icon and gradient |
| `Storage` | storage.dfy | `localStorage` as a map |
| `Wallet` | wallet.dfy | the wallet provider, its effects and `useWallet` |
| `Theme` | theme.dfy | the theme provider and `useTheme` |

Facts about the code that shape the backend model:

- The job for a chat event is named `handle-line-event`.
- A job with an unknown name is logged and completes normally. It does not
  fail.
- Jobs carry no attempt counter, no retry classification and no idempotency
  key. The model proves the consequences: a redelivered webhook batch writes
  accepted events twice (`Webhook.RedeliveryDuplicatesAcceptedEvents`), and
  ticks re-enqueue the same two jobs every minute (`Scheduler.TicksRepeatThePlan`).
- The settle and reminder cases only log, after destructuring the job's
  payload. A null payload therefore throws in all three named cases.
- Follow, join and text-message events log `event.source` before they
  reply or return, so such an event without a source throws. A message's
  type is read first, and a non-text message never reads the source.
- The chat-event case returns the promise of LINE's reply call, so a job
  that replies completes only if LINE accepts the reply.

## Model

| member | source | states |
|---|---|---|
| Worker.ArmOf | backend/worker.js:22-51 | each of the three job names selects its own case, and exactly the names outside the three reach the default arm |
| Worker.HandleEvent | backend/worker.js:23-38 | a reply is made exactly for a text message that carries its source: to the event's reply token, with "You said: " followed by the text. Follow, join and other events do nothing. A null payload, a payload without an event, a message event without a message, or a follow, join or text-message event without a source, throws. The missing-source fault arises exactly for those three kinds of event |
| Worker.Dispatch | backend/worker.js:22-51 | only `handle-line-event` can reply, and only for a text message with a source. A job throws exactly when it is `handle-line-event` with a malformed event (no message on a message event, or no source where one is logged), or settle or reminder with a null payload. Otherwise settle and reminder return normally with no action, and unknown names always do |
| Worker.FollowAndJoinAreSilent | backend/worker.js:25-30 | a follow or join event is acknowledged with no reply. It raises no error when it carries its source, and throws for a missing source otherwise |
| Worker.NonTextMessageIsIgnored | backend/worker.js:31-38 | a message event whose message is not text gets no reply and raises no error, with or without a source |
| Worker.UnknownNameCompletes | backend/worker.js:49-51 | an unrecognised job name completes with no action, whatever LINE would answer |
| Webhook.Calls | backend/index.js:20 | one enqueue per event, in event order, each carrying its event unchanged under `handle-line-event` |
| Webhook.CountAcceptedIsTotal | backend/index.js:19-25 | the batch succeeds exactly when every enqueue is accepted |
| Webhook.Written | backend/index.js:29-33 | the queue receives as many jobs as enqueues were accepted, and the jobs written are exactly the accepted events' jobs, all named `handle-line-event`. When all are accepted it receives the whole batch in event order (the interleaving the model picks, see Left out) |
| Webhook.WrittenCountsAcceptedEnqueues | backend/index.js:19-33 | each job is written as many times as there are accepted enqueues carrying it, whichever enqueues were rejected |
| Webhook.Receive | backend/index.js:18-26 | the queue only grows, by the accepted jobs. The response is the list of one null per event exactly when all enqueues succeed, and 500 otherwise |
| Webhook.WrittenIsSubBatch | backend/index.js:19-25 | a request writes no job that its batch did not call for, and none more often than the batch calls for it |
| Webhook.ReceiveAddsOnlyEventJobs | backend/index.js:29-33 | every job a request adds is named `handle-line-event` |
| Webhook.RedeliveryDuplicatesAcceptedEvents | backend/index.js:19-25 | after a 500 with some enqueues accepted, redelivering the batch writes an accepted event at least twice when its redelivered enqueue is accepted, whatever happens to the other enqueues (there is no deduplication) |
| Scheduler.TickAdds | backend/scheduler.js:13-21 | a tick adds nothing when the settle enqueue rejects, the settle job alone when the reminder enqueue rejects, and both jobs in order otherwise |
| Scheduler.Tick | backend/scheduler.js:7-23 | a tick only appends to the queue, and it runs to its end exactly when both enqueues succeed |
| Scheduler.Ticks | backend/scheduler.js:7 | consecutive ticks extend the queue by at most two jobs each |
| Scheduler.TicksAppend | backend/scheduler.js:7-23 | a run of ticks appends each tick's jobs in tick order |
| Scheduler.TicksRepeatThePlan | backend/scheduler.js:13-21 | n fully successful ticks add n identical settle jobs and n identical reminder jobs, alternating |
| Scheduler.RemindersFollowSettlements | backend/scheduler.js:13-21 | whatever the broker answers, ticks add only the two example jobs. Reminders never outnumber settlements, and settlements never outnumber ticks |
| Pipeline.WebhookJobsAreHandled | backend/index.js:29-33 | every job the webhook adds reaches a named case of the worker and carries one of the batch's events, whatever the events hold. A job whose event is well formed completes if LINE accepts the reply, and if LINE rejects it exactly the text-message jobs fail |
| Pipeline.TickJobsAreHandled | backend/scheduler.js:14-21 | every job a tick adds reaches a named case of the worker and completes, even if LINE would reject a reply, because it makes none |
| Pipeline.EchoScenario | backend/worker.js:31-37 | the text "hi" with reply token "T1" becomes one queued job that replies "You said: hi" to "T1" |
| Pipeline.ReminderScenario | backend/worker.js:39-48 | the scheduler's two example jobs complete with no action |
| AnalyticsRows.CommonFields | backend/export-analytics.js:56-64 | every record holds the event type, contract, timestamp, block number and transaction hash, with the given type and contract |
| AnalyticsRows.IdentityRow | backend/export-analytics.js:56-64 | an `AddressBound` record has exactly the identity columns. It carries the binder's address, the bound user address and LINE id hash, and the event's timestamp |
| AnalyticsRows.FactoryExtras | backend/export-analytics.js:78-92 | the factory-specific columns are exactly the factory columns that are not common to every record |
| AnalyticsRows.FactoryRow | backend/export-analytics.js:78-92 | a `MissionCreated` record has exactly the factory columns. It carries the factory address, pool, creator, the ether-formatted target and the timestamp |
| AnalyticsRows.PoolSeconds | backend/export-analytics.js:124 | the timestamp fallback fails exactly for a zero timestamp on a non-Deposit event. When it succeeds, the instant is the timestamp itself |
| AnalyticsRows.PoolExtras | backend/export-analytics.js:130-159 | the type-specific columns exist exactly when the decoded arguments belong to the queried type (UserJoined accepts any), and they are that type's columns |
| AnalyticsRows.PoolExtrasKeepBase | backend/export-analytics.js:120-159 | a pool record's type-specific columns never overwrite its base columns |
| AnalyticsRows.PoolRow | backend/export-analytics.js:119-160 | mapping a pool log succeeds exactly when its timestamp resolves and its arguments fit the queried type. The record then has the base columns plus that type's columns, the type's name, the pool's address, the user and the timestamp |
| AnalyticsRows.RewardExtras | backend/export-analytics.js:198-221 | the reward-specific columns exist exactly when the decoded arguments belong to the queried type, and they are that type's columns |
| AnalyticsRows.RewardExtrasKeepBase | backend/export-analytics.js:189-221 | a reward record's type-specific columns never overwrite its base columns |
| AnalyticsRows.RewardRow | backend/export-analytics.js:188-222 | mapping a reward log succeeds exactly when its arguments belong to the queried type. The record then has the base plus type columns, the distributor's address, the mission pool and the event's own timestamp |
| AnalyticsRows.ColumnIndex | backend/export-analytics.js:263-291 | every record key has a column in the header |
| AnalyticsRows.HeaderCoversEmittedKeys | backend/export-analytics.js:263-291 | the header's columns are exactly the keys the mappers emit, so the CSV drops no field and has no column that is always empty |
| AnalyticsRows.HeaderColumnsAreDistinct | backend/export-analytics.js:263-291 | the header has 27 columns, each under its key's id, no two for the same key and no two with the same id |
| AnalyticsRows.ColumnsAreDistinct | backend/export-analytics.js:263-291 | the 27 header columns name 27 different record keys |
| AnalyticsRows.SignatureNamesKey | backend/export-analytics.js:265-289 | each column id is non-empty, and its length with its first and last character identify its key |
| AnalyticsRows.IdIsInjective | backend/export-analytics.js:265-289 | two record keys with the same column id are the same key |
| AnalyticsExport.MapAll | backend/export-analytics.js:119 | mapping a list of logs succeeds exactly when every log maps, and the records correspond to the logs one by one |
| AnalyticsExport.IdentityEvents | backend/export-analytics.js:45-65 | with no binder address the result is empty. Otherwise it fails exactly when the query rejects, and gives one `AddressBound` record per log, in order |
| AnalyticsExport.FactoryEvents | backend/export-analytics.js:67-93 | with no factory address the result is empty. Otherwise it fails exactly when the query rejects, and gives one `MissionCreated` record per log, in order |
| AnalyticsExport.TypeBlock | backend/export-analytics.js:117-165 | every record of one pool-and-type block carries that pool's address and that type's name |
| AnalyticsExport.TypeBlockContents | backend/export-analytics.js:117-165 | one block yields nothing when the query rejects or any log fails to map, and otherwise one record per log, in order |
| AnalyticsExport.TypesFrom | backend/export-analytics.js:116-167 | the inner loop over event types gives only records of its pool, each with one of the five pool event type names |
| AnalyticsExport.PoolsFrom | backend/export-analytics.js:110-168 | the outer loop over pools gives only records of listed pools, each with one of the five pool event type names |
| AnalyticsExport.PoolEvents | backend/export-analytics.js:95-170 | with no factory address the result is empty. Otherwise it fails exactly when `getMissionPools` rejects. Every record it gives carries one of the listed pools' addresses and one of the five pool event type names. When the pools are distinct, the records run by pool in list order, and within a pool by event type in loop order |
| AnalyticsExport.RewardBlock | backend/export-analytics.js:185-228 | every record of one reward block carries the distributor's address and that type's name |
| AnalyticsExport.RewardBlockContents | backend/export-analytics.js:185-228 | one reward block yields nothing when the query rejects or any log fails to map, and otherwise one record per log, in order |
| AnalyticsExport.RewardsFrom | backend/export-analytics.js:185-228 | the loop over reward event types gives only records carrying the distributor's address, each with one of the three reward event type names |
| AnalyticsExport.RewardEvents | backend/export-analytics.js:172-231 | the reward exporter never fails, and is empty with no distributor address. Every record carries the distributor's address and one of the three reward event type names, in the order `RewardSettled`, `TreasuryFee`, `MissionSettled` |
| AnalyticsExport.ExportRows | backend/export-analytics.js:244-251 | the export fails exactly when the identity query, the factory query or `getMissionPools` rejects for a configured address. Otherwise it is the identity, factory, pool and reward records in that order |
| AnalyticsExport.NothingConfiguredExportsNothing | backend/export-analytics.js:46-49 | with no address configured nothing is exported |
| AnalyticsExport.PoolTypeIsIsolated | backend/export-analytics.js:110-166 | with distinct pools, the records of a pool and type in the pool export are exactly that query's block (empty for an unlisted pool): a failing query loses only its own records |
| AnalyticsExport.RewardTypeIsIsolated | backend/export-analytics.js:185-228 | the records of one reward type are exactly its block: a failing reward query loses only its own records |
| AnalyticsExport.PoolRowsAreOrdered | backend/export-analytics.js:110-116 | with distinct pools, pool records come in pool order and, within a pool, in the order Deposit, MissedDeposit, MissionCompleted, Withdrawal, UserJoined |
| AnalyticsExport.ExportIsOrderedByFamily | backend/export-analytics.js:251 | the merged export lists identity records, then factory records, then pool records, then reward records |
| AnalyticsSummary.CountTypes | backend/export-analytics.js:312-314 | the per-type counts hold, for every event type present and no other, its number of records, and they add up to the record count |
| AnalyticsSummary.CollectValues | backend/export-analytics.js:316-322 | the collected set is every truthy value of the chosen columns across all records |
| AnalyticsSummary.DateBounds | backend/export-analytics.js:324-331 | the range is empty exactly when there are no records. Otherwise its start is the earliest record instant and its end the latest, each reached by some record |
| AnalyticsSummary.Summarize | backend/export-analytics.js:301-344 | the summary's total is the record count. Its type counts tally the records and sum to the total; the user count covers the user, user address and creator columns and the pool count the mission pool column; the range spans the record instants |
| AnalyticsSummary.DateRangeIsOrdered | backend/export-analytics.js:324-331 | the summary's date range never runs backwards |
| AnalyticsSummary.ExportAnalytics | backend/export-analytics.js:233-352 | `main` fails exactly when an exporter rejects, and stops with no output exactly when there are no records. Otherwise it writes the merged records and their summary |
| Achievements.Find | frontend/src/components/AchievementNotification.tsx:175 | an entry is found exactly when some entry has the key, and it is an entry of the table with that key |
| Achievements.FindIsUnique | frontend/src/components/AchievementNotification.tsx:175 | in a table with strictly increasing thresholds, the entry found is the only one with that key |
| Achievements.TablesAreStrictlyIncreasing | frontend/src/components/AchievementNotification.tsx:165-198 | the three tables list their thresholds in strictly increasing order |
| Achievements.StreakAchievement | frontend/src/components/AchievementNotification.tsx:165-176 | a streak earns an achievement exactly at 3, 7, 14, 30, 50 or 100 days, and it is the entry for that count |
| Achievements.MilestoneAchievement | frontend/src/components/AchievementNotification.tsx:178-188 | a savings amount earns an achievement exactly at 100, 500, 1000, 5000 or 10000, and it is the entry for that amount |
| Achievements.SquadAchievement | frontend/src/components/AchievementNotification.tsx:190-199 | a squad size earns an achievement exactly at 3, 5, 10 or 25 members, and it is the entry for that size |
| Achievements.StreakExamples | frontend/src/components/AchievementNotification.tsx:165-176 | matching is exact: 4 and 99 days earn nothing, and 7 days earns "Week Warrior!" |
| Achievements.MilestoneExamples | frontend/src/components/AchievementNotification.tsx:178-188 | 750 earns nothing, and 1000 earns "Thousand Club!" |
| Achievements.SquadExamples | frontend/src/components/AchievementNotification.tsx:190-199 | 4 members earn nothing, and 25 earn "Squad Empire!" |
| Achievements.Gradient | frontend/src/components/AchievementNotification.tsx:51-62 | each of streak, milestone and squad has its own gradient, and exactly the other types get the default |
| Achievements.IconFor | frontend/src/components/AchievementNotification.tsx:38-49 | each of streak, milestone and squad has its own glyph and colour, and exactly the other types get the blue star |
| Achievements.IconAndGradientAgree | frontend/src/components/AchievementNotification.tsx:38-62 | two types share a gradient exactly when they share an icon. The default icon goes with the default gradient, which is what the declared type "achievement" gets |
| Storage.GetItem | frontend/src/lib/wallet-context.tsx:24 | reading a key gives its stored value, or null exactly when it is absent |
| Storage.SetItem | frontend/src/lib/wallet-context.tsx:34 | writing a key stores the value and leaves every other key as it was |
| Storage.RemoveItem | frontend/src/lib/wallet-context.tsx:36 | removing a key makes it absent and leaves every other key as it was |
| Wallet.Persist | frontend/src/lib/wallet-context.tsx:32-38 | after the persist effect, the entry holds a truthy account and is absent for a falsy one. No other key changes |
| Wallet.SetAccount | frontend/src/lib/wallet-context.tsx:32-38 | setting a new account brings the entry in step with it, and an entry already in step stays in step |
| Wallet.Mount | frontend/src/lib/wallet-context.tsx:23-38 | after mount, loading is off, the account is the saved one when that is truthy (otherwise none), and the entry is in step. A truthy saved entry survives |
| Wallet.ConnectWallet | frontend/src/lib/wallet-context.tsx:40-56 | connecting succeeds exactly when the SDK is ready and the wallet answers a non-empty account list. It then selects the first account; on failure nothing changes |
| Wallet.DisconnectWallet | frontend/src/lib/wallet-context.tsx:58-61 | disconnecting clears the account, and the stored entry with it |
| Wallet.StorageFollowsAccount | frontend/src/lib/wallet-context.tsx:23-61 | after mount and any sequence of connects and disconnects, the stored entry matches the account |
| Wallet.RunKeepsPersisted | frontend/src/lib/wallet-context.tsx:32-61 | connects and disconnects keep the entry in step with the account |
| Wallet.ContextValue | frontend/src/lib/wallet-context.tsx:63-69 | the exposed value carries the account and the SDK's error, and is loading when the provider or the SDK is |
| Wallet.MountedLoadingIsSdkLoading | frontend/src/lib/wallet-context.tsx:28 | once mounted, the exposed loading flag is exactly the SDK's |
| Wallet.UseWallet | frontend/src/lib/wallet-context.tsx:78-84 | the hook throws its message exactly outside a provider, and otherwise returns the provider's value |
| Theme.Mount | frontend/src/lib/theme-context.tsx:15-27 | with no saved entry nothing changes. A saved entry that parses sets the flag and puts the class in step, touching no other class. An entry that does not parse throws |
| Theme.ToggleClass | frontend/src/lib/theme-context.tsx:32 | toggling the class flips its presence and leaves every other class alone |
| Theme.Toggle | frontend/src/lib/theme-context.tsx:29-34 | toggling negates the flag, flips the class and stores the new flag as JSON, leaving other keys alone |
| Theme.ToggleTwiceRestores | frontend/src/lib/theme-context.tsx:29-34 | toggling twice restores the flag and the class list |
| Theme.ToggleKeepsSync | frontend/src/lib/theme-context.tsx:30-32 | a toggle keeps the class in step with the flag exactly when it already was |
| Theme.ToggledChoiceSurvivesReload | frontend/src/lib/theme-context.tsx:15-34 | after a toggle, a fresh provider mounting over the stored entry restores the toggled flag with the class in step, whatever classes the new page starts with |
| Theme.UseTheme | frontend/src/lib/theme-context.tsx:43-49 | the hook throws its message exactly outside a provider, and otherwise returns the provider's value |

## Left out

- BullMQ and Redis (queue.js): the queue is an append-only sequence, and the broker's answer to each `queue.add` is a parameter. Claiming, retries, visibility and retention belong to the library.
- The LINE SDK client, the signature middleware and the Express server: the reply call is the `Reply` outcome of the worker, LINE's answer to it is the `lineAccepts` argument of `Worker.Completes`, and signature checks happen before the route.
- Webhook.Written: `Promise.all` starts the enqueues together, so accepted jobs can reach the queue in any interleaving. The model appends them in event order, which is one admissible interleaving. The clauses that fix an order hold for that interleaving only: `Webhook.Written` when all enqueues are accepted, `Webhook.Receive`'s `queue + Written(...)`, and `Pipeline.EchoScenario`. The count, membership and multiset clauses (`Webhook.Written`'s membership, `Webhook.Receive`'s multiset, `Webhook.WrittenIsSubBatch`, `Webhook.WrittenCountsAcceptedEnqueues`) hold for every interleaving.
- AnalyticsExport.IdentityEvents: every `AddressBound` log is assumed to decode. A log without `args` makes the mapping at backend/export-analytics.js:56-64 throw outside any `try`, and the export then fails. The model has no such log.
- AnalyticsExport.FactoryEvents: every `MissionCreated` log is assumed to decode. A log without `args` makes the mapping at backend/export-analytics.js:78-92 throw outside any `try`, and the export then fails. The model has no such log.
- Cron timing: ticks are a sequence, and their spacing in time is not modelled.
- Console logging, `fs.mkdirSync`, the CSV and JSON file writes, and `process.exit(1)`: the model returns what would be written, or the failure.
- ethers, `formatEther`, `toString` and ISO date rendering are the `Render` parameter. Contract queries and `getMissionPools` are the `Chain` parameter, and a rejected call is `None`.
- AnalyticsRows.PoolSeconds: a timestamp outside the range of JavaScript dates makes `toISOString` throw; the model assumes every timestamp is in range. The `Number` conversion of a uint256 timestamp is taken as exact.
- AnalyticsExport.PoolTypeIsIsolated: assumes `getMissionPools` lists each pool once. With a repeated pool the script queries it once per listing, so its records appear that many times.
- AnalyticsExport.PoolRowsAreOrdered: assumes distinct pools, for the same reason.
- AnalyticsSummary.Summarize: the script's `eventTypes` is a plain object, so a type name such as `__proto__` would behave specially. The model uses a map.
- AnalyticsSummary.Summarize: the script's single `forEach` is modelled as three passes, one per statistic. The statistics do not depend on each other.
- AnalyticsSummary.DateBounds: compares record instants in whole seconds, the unit the mappers render; the script compares the `Date` values re-parsed from the ISO strings, which denote the same instants.
- Achievements: the descriptions in the source text are double-encoded (UTF-8 emoji read as Latin-1). The model's tables hold the intended emoji. The lookups match on the threshold, so this does not affect any contract.
- Achievements.Find: the argument is an integer. A fractional count matches nothing in the script, which integers already show.
- The notification's auto-hide timer, animation and rendering, the confetti, the achievement badge and the presentational pages: they only display state.
- The Dapp Portal SDK (`useDappPortal`, `dapp-portal.ts`): its readiness, loading flag, error and the wallet's answer to `kaia_requestAccounts` are parameters.
- Toast notifications in the wallet provider: purely visual.
- Theme.Mount: the script stores the parsed JSON value itself in `isDark`. The model keeps its truthiness, which is all that the class toggle, `!isDark` and the rendered output read. `JSON.parse` is a parameter.
- Wallet.Mount: React batches the two state updates of the load effect. The model runs the first commit's effects in declaration order, then the re-render caused by the restored account.

=== FILE: achievements.dfy ===
/**
 * The achievement tables of the notification component: three exact-match
 * lookups (`Array.prototype.find` with `===`) over small constant tables, and
 * the notification type's icon and gradient, each a `switch` with a default
 * arm.
 */
module Achievements {
  import opened Options

  /**
   * One table entry. `threshold` is the entry's `days`, `amount` or
   * `members` field, depending on the table.
   */
  datatype Achievement = Achievement(threshold: int, title: string, description: string)

  const StreakTable: seq<Achievement> := [
    Achievement(3, "Getting Started!", "3-day saving streak! Keep it up! \U{1F525}"),
    Achievement(7, "Week Warrior!", "7-day streak! You're unstoppable! \U{1F4AA}"),
    Achievement(14, "Fortnight Champion!", "14-day streak! Squad goals achieved! \U{1F3C6}"),
    Achievement(30, "Monthly Master!", "30-day streak! Legend status unlocked! \U{1F451}"),
    Achievement(50, "Golden Streak!", "50-day streak! You're a savings legend! \U{2728}"),
    Achievement(100, "Century Club!", "100-day streak! Immortal saver! \U{1F31F}")
  ]

  const MilestoneTable: seq<Achievement> := [
    Achievement(100, "First Hundred!", "Saved $100! Every journey begins with a single step! \U{1F3AF}"),
    Achievement(500, "Half Grand!", "Saved $500! You're building wealth! \U{1F4B0}"),
    Achievement(1000, "Thousand Club!", "Saved $1,000! Major milestone achieved! \U{1F3C6}"),
    Achievement(5000, "Five Grand!", "Saved $5,000! Wealth builder extraordinaire! \U{1F48E}"),
    Achievement(10000, "Ten Thousand!", "Saved $10,000! Financial freedom is calling! \U{1F680}")
  ]

  const SquadTable: seq<Achievement> := [
    Achievement(3, "Squad Formed!", "Got 3 squad members! Teamwork makes the dream work! \U{1F465}"),
    Achievement(5, "Squad Goals!", "5 squad members! Your squad is growing strong! \U{1F4AA}"),
    Achievement(10, "Squad Army!", "10 squad members! Leading a savings revolution! \U{1F451}"),
    Achievement(25, "Squad Empire!", "25 squad members! You're a squad leader! \U{1F31F}")
  ]

  /** The thresholds a table rewards, in table order. */
  function Thresholds(table: seq<Achievement>): (ks: seq<int>)
    ensures |ks| == |table|
    ensures forall i :: 0 <= i < |table| ==> ks[i] == table[i].threshold
  {
    seq(|table|, i requires 0 <= i < |table| => table[i].threshold)
  }

  /** `table.find(a => a.threshold === key)`: the first entry whose threshold is `key`. */
  function Find(table: seq<Achievement>, key: int): (r: Option<Achievement>)
    ensures r.Some? <==> key in Thresholds(table)
    ensures r.Some? ==> r.value in table && r.value.threshold == key
  {
    if table == [] then None
    else if table[0].threshold == key then Some(table[0])
    else
      assert Thresholds(table) == [table[0].threshold] + Thresholds(table[1..]);
      Find(table[1..], key)
  }

  /** Thresholds strictly increase along the table. */
  predicate StrictlyIncreasing(table: seq<Achievement>) {
    forall i, j :: 0 <= i < j < |table| ==> table[i].threshold < table[j].threshold
  }

  /** In a strictly increasing table the first match is the only match. */
  lemma {:induction false} FindIsUnique(table: seq<Achievement>, key: int)
    requires StrictlyIncreasing(table)
    requires Find(table, key).Some?
    ensures forall a :: a in table && a.threshold == key ==> a == Find(table, key).value
  {
    if table[0].threshold == key {
      forall a | a in table && a.threshold == key
        ensures a == table[0]
      {
        var j :| 0 <= j < |table| && table[j] == a;
      }
    } else {
      assert StrictlyIncreasing(table[1..]) by {
        forall i, j | 0 <= i < j < |table[1..]|
          ensures table[1..][i].threshold < table[1..][j].threshold
        {
          assert table[1..][i] == table[i + 1] && table[1..][j] == table[j + 1];
        }
      }
      FindIsUnique(table[1..], key);
      forall a | a in table && a.threshold == key
        ensures a in table[1..]
      {
        var j :| 0 <= j < |table| && table[j] == a;
        assert j > 0;
        assert table[1..][j - 1] == a;
      }
    }
  }

  lemma TablesAreStrictlyIncreasing()
    ensures StrictlyIncreasing(StreakTable)
    ensures StrictlyIncreasing(MilestoneTable)
    ensures StrictlyIncreasing(SquadTable)
  {
  }

  /** `triggerStreakAchievement(days)`. */
  function StreakAchievement(days: int): (r: Option<Achievement>)
    ensures r.Some? <==> days in {3, 7, 14, 30, 50, 100}
    ensures r.Some? ==> r.value.threshold == days && r.value in StreakTable
  {
    assert Thresholds(StreakTable) == [3, 7, 14, 30, 50, 100];
    Find(StreakTable, days)
  }

  /** `triggerMilestoneAchievement(amount)`. */
  function MilestoneAchievement(amount: int): (r: Option<Achievement>)
    ensures r.Some? <==> amount in {100, 500, 1000, 5000, 10000}
    ensures r.Some? ==> r.value.threshold == amount && r.value in MilestoneTable
  {
    assert Thresholds(MilestoneTable) == [100, 500, 1000, 5000, 10000];
    Find(MilestoneTable, amount)
  }

  /** `triggerSquadAchievement(members)`. */
  function SquadAchievement(members: int): (r: Option<Achievement>)
    ensures r.Some? <==> members in {3, 5, 10, 25}
    ensures r.Some? ==> r.value.threshold == members && r.value in SquadTable
  {
    assert Thresholds(SquadTable) == [3, 5, 10, 25];
    Find(SquadTable, members)
  }

  /**
   * Matching is exact, not "highest threshold reached": a count between two
   * thresholds earns nothing, and a listed count earns exactly its entry.
   */
  lemma StreakExamples()
    ensures StreakAchievement(4) == None && StreakAchievement(99) == None
    ensures StreakAchievement(7).Some? && StreakAchievement(7).value.title == "Week Warrior!"
  {
    TablesAreStrictlyIncreasing();
    assert StreakTable[1] in StreakTable;
    FindIsUnique(StreakTable, 7);
  }

  lemma MilestoneExamples()
    ensures MilestoneAchievement(750) == None
    ensures MilestoneAchievement(1000).Some? && MilestoneAchievement(1000).value.title == "Thousand Club!"
  {
    TablesAreStrictlyIncreasing();
    assert MilestoneTable[2] in MilestoneTable;
    FindIsUnique(MilestoneTable, 1000);
  }

  lemma SquadExamples()
    ensures SquadAchievement(4) == None
    ensures SquadAchievement(25).Some? && SquadAchievement(25).value.title == "Squad Empire!"
  {
    TablesAreStrictlyIncreasing();
    assert SquadTable[3] in SquadTable;
    FindIsUnique(SquadTable, 25);
  }

  const DefaultGradient: string := "from-blue-400 to-purple-500"

  /** `getGradient()` for the notification's `type`. */
  function Gradient(kind: string): (g: string)
    ensures g == DefaultGradient <==> kind !in {"streak", "milestone", "squad"}
    ensures kind == "streak" ==> g == "from-orange-400 to-red-500"
    ensures kind == "milestone" ==> g == "from-yellow-400 to-orange-500"
    ensures kind == "squad" ==> g == "from-purple-400 to-pink-500"
  {
    match kind
    case "streak" => "from-orange-400 to-red-500"
    case "milestone" => "from-yellow-400 to-orange-500"
    case "squad" => "from-purple-400 to-pink-500"
    case _ => DefaultGradient
  }

  datatype Glyph = Flame | Trophy | Users | Star

  /** The icon element: a lucide glyph and its colour class. */
  datatype Icon = Icon(glyph: Glyph, colorClass: string)

  const DefaultIcon: Icon := Icon(Star, "text-blue-500")

  /** `getIcon()` for the notification's `type`. */
  function IconFor(kind: string): (i: Icon)
    ensures i == DefaultIcon <==> kind !in {"streak", "milestone", "squad"}
    ensures kind == "streak" ==> i == Icon(Flame, "text-orange-500")
    ensures kind == "milestone" ==> i == Icon(Trophy, "text-yellow-500")
    ensures kind == "squad" ==> i == Icon(Users, "text-purple-500")
  {
    match kind
    case "streak" => Icon(Flame, "text-orange-500")
    case "milestone" => Icon(Trophy, "text-yellow-500")
    case "squad" => Icon(Users, "text-purple-500")
    case _ => DefaultIcon
  }

  /**
   * Icon and gradient take the same arm: a type gets the default icon exactly
   * when it gets the default gradient, and the three named types are told
   * apart by both. The declared type `'achievement'` falls to the default.
   */
  lemma IconAndGradientAgree(k1: string, k2: string)
    ensures (IconFor(k1) == DefaultIcon) <==> (Gradient(k1) == DefaultGradient)
    ensures Gradient(k1) == Gradient(k2) <==> IconFor(k1) == IconFor(k2)
    ensures Gradient("achievement") == DefaultGradient && IconFor("achievement") == DefaultIcon
  {
  }

}

=== FILE: analytics_export.dfy ===
/**
 * The four exporters of the analytics script and their merge. The chain is
 * an input: every `queryFilter` and the `getMissionPools` call is a field of
 * `Chain` that answers with decoded logs or `None` when the call rejects.
 */
module AnalyticsExport {
  import opened Options
  import opened AnalyticsRows

  /** The three contract addresses read from the environment; "" stands for unset. */
  datatype Addresses = Addresses(identityBinder: string, missionFactory: string, rewardDistributor: string)

  /** `if (!address)` skips an exporter: the variable is unset or empty. */
  predicate Configured(address: string) {
    address != ""
  }

  /** What each chain call answers, `None` when it rejects. */
  datatype Chain = Chain(
    addressBound: Option<seq<Logged<IdentityArgs>>>,
    missionCreated: Option<seq<Logged<FactoryArgs>>>,
    missionPools: Option<seq<string>>,
    poolEvents: (string, PoolEventType) -> Option<seq<Logged<PoolArgs>>>,
    rewardEvents: RewardEventType -> Option<seq<Logged<RewardArgs>>>)

  /** `ContractText(row)`: the record's contract address, "" when it has none. */
  function ContractText(row: Row): string {
    if ContractAddress in row.fields && row.fields[ContractAddress].Text? then row.fields[ContractAddress].text else ""
  }

  /** `events.map(f)`, where `f` may throw (`None`); one throw fails the whole map. */
  function MapAll<A>(logs: seq<A>, f: A -> Option<Row>): (r: Option<seq<Row>>)
    ensures r.Some? <==> forall i :: 0 <= i < |logs| ==> f(logs[i]).Some?
    ensures r.Some? ==> |r.value| == |logs| && forall i :: 0 <= i < |logs| ==> f(logs[i]) == Some(r.value[i])
  {
    if logs == [] then Some([])
    else
      match f(logs[0])
      case None => None
      case Some(row) =>
        match MapAll(logs[1..], f)
        case None =>
          assert exists i :: 0 < i < |logs| && f(logs[i]).None? by {
            var j :| 0 <= j < |logs[1..]| && f(logs[1..][j]).None?;
            assert logs[1..][j] == logs[j + 1];
          }
          None
        case Some(rest) =>
          assert forall i :: 0 < i < |logs| ==> logs[i] == logs[1..][i - 1];
          Some([row] + rest)
  }

  /* ---------- identity binder and mission factory ---------- */

  /** `exportIdentityBinderEvents`: one `AddressBound` record per log. */
  function IdentityEvents(addresses: Addresses, chain: Chain, render: Render): (r: Option<seq<Row>>)
    ensures !Configured(addresses.identityBinder) ==> r == Some([])
    ensures Configured(addresses.identityBinder) ==> (r.Some? <==> chain.addressBound.Some?)
    ensures Configured(addresses.identityBinder) && r.Some? ==>
      && |r.value| == |chain.addressBound.value|
      && forall i :: 0 <= i < |r.value| ==> r.value[i] == IdentityRow(addresses.identityBinder, chain.addressBound.value[i], render)
  {
    if !Configured(addresses.identityBinder) then Some([])
    else
      match chain.addressBound
      case None => None
      case Some(logs) => Some(seq(|logs|, i requires 0 <= i < |logs| => IdentityRow(addresses.identityBinder, logs[i], render)))
  }

  /** `exportMissionFactoryEvents`: one `MissionCreated` record per log. */
  function FactoryEvents(addresses: Addresses, chain: Chain, render: Render): (r: Option<seq<Row>>)
    ensures !Configured(addresses.missionFactory) ==> r == Some([])
    ensures Configured(addresses.missionFactory) ==> (r.Some? <==> chain.missionCreated.Some?)
    ensures Configured(addresses.missionFactory) && r.Some? ==>
      && |r.value| == |chain.missionCreated.value|
      && forall i :: 0 <= i < |r.value| ==> r.value[i] == FactoryRow(addresses.missionFactory, chain.missionCreated.value[i], render)
  {
    if !Configured(addresses.missionFactory) then Some([])
    else
      match chain.missionCreated
      case None => None
      case Some(logs) => Some(seq(|logs|, i requires 0 <= i < |logs| => FactoryRow(addresses.missionFactory, logs[i], render)))
  }

  /* ---------- mission pools ---------- */

  /** A record of pool `pool`'s `t` query: its contract and event type. */
  predicate PoolShaped(pool: string, t: PoolEventType, row: Row) {
    ContractText(row) == pool && EventTypeOf(row) == PoolTypeName(t)
  }

  /** Every log of the `t` query maps without throwing. */
  predicate PoolLogsMap(pool: string, t: PoolEventType, logs: seq<Logged<PoolArgs>>, render: Render) {
    forall i :: 0 <= i < |logs| ==> PoolRow(t, pool, logs[i], render).Some?
  }

  /**
   * The records one `try` block contributes for pool `pool` and type `t`:
   * all logs mapped, or nothing when the query or any mapping throws.
   */
  function TypeBlock(pool: string, t: PoolEventType, chain: Chain, render: Render): (r: seq<Row>)
    ensures forall i :: 0 <= i < |r| ==> PoolShaped(pool, t, r[i])
  {
    match chain.poolEvents(pool, t)
    case None => []
    case Some(logs) =>
      match MapAll(logs, log => PoolRow(t, pool, log, render))
      case None => []
      case Some(rows) => rows
  }

  /** What one `try` block keeps: every log mapped, or nothing. */
  lemma TypeBlockContents(pool: string, t: PoolEventType, chain: Chain, render: Render)
    ensures chain.poolEvents(pool, t).None? ==> TypeBlock(pool, t, chain, render) == []
    ensures chain.poolEvents(pool, t).Some? && !PoolLogsMap(pool, t, chain.poolEvents(pool, t).value, render) ==>
      TypeBlock(pool, t, chain, render) == []
    ensures chain.poolEvents(pool, t).Some? && PoolLogsMap(pool, t, chain.poolEvents(pool, t).value, render) ==>
      && |TypeBlock(pool, t, chain, render)| == |chain.poolEvents(pool, t).value|
      && forall i :: 0 <= i < |TypeBlock(pool, t, chain, render)| ==>
           PoolRow(t, pool, chain.poolEvents(pool, t).value[i], render) == Some(TypeBlock(pool, t, chain, render)[i])
  {
  }

  /** The inner loop over the five event types, from the `k`-th on. */
  function TypesFrom(pool: string, k: nat, chain: Chain, render: Render): (r: seq<Row>)
    requires k <= |PoolEventTypes|
    ensures forall i :: 0 <= i < |r| ==> ContractText(r[i]) == pool && EventTypeOf(r[i]) in PoolNames()
    decreases |PoolEventTypes| - k
  {
    if k == |PoolEventTypes| then []
    else
      assert PoolNames()[k] == PoolTypeName(PoolEventTypes[k]);
      TypeBlock(pool, PoolEventTypes[k], chain, render) + TypesFrom(pool, k + 1, chain, render)
  }

  /** The outer loop over the mission pools, from the `n`-th on. */
  function PoolsFrom(pools: seq<string>, n: nat, chain: Chain, render: Render): (r: seq<Row>)
    requires n <= |pools|
    ensures forall i :: 0 <= i < |r| ==> ContractText(r[i]) in pools && EventTypeOf(r[i]) in PoolNames()
    decreases |pools| - n
  {
    if n == |pools| then []
    else TypesFrom(pools[n], 0, chain, render) + PoolsFrom(pools, n + 1, chain, render)
  }

  /**
   * `exportMissionPoolEvents`: gated on the factory address; `getMissionPools`
   * is outside the per-type `try`, so its rejection rejects the exporter.
   */
  function PoolEvents(addresses: Addresses, chain: Chain, render: Render): (r: Option<seq<Row>>)
    ensures !Configured(addresses.missionFactory) ==> r == Some([])
    ensures Configured(addresses.missionFactory) ==> (r.Some? <==> chain.missionPools.Some?)
    ensures Configured(addresses.missionFactory) && r.Some? ==>
      forall i :: 0 <= i < |r.value| ==>
        ContractText(r.value[i]) in chain.missionPools.value && EventTypeOf(r.value[i]) in PoolNames()
    ensures Configured(addresses.missionFactory) && r.Some? && Distinct(chain.missionPools.value) ==>
      Ordered(r.value, row => PoolPosition(chain.missionPools.value, row))
    ensures Configured(addresses.missionFactory) && r.Some? ==> r.value == PoolsFrom(chain.missionPools.value, 0, chain, render)
  {
    if !Configured(addresses.missionFactory) then Some([])
    else
      match chain.missionPools
      case None => None
      case Some(pools) =>
        assert Distinct(pools) ==> Ordered(PoolsFrom(pools, 0, chain, render), row => PoolPosition(pools, row)) by {
          if Distinct(pools) {
            PoolRowsAreOrdered(pools, chain, render);
          }
        }
        Some(PoolsFrom(pools, 0, chain, render))
  }

  /* ---------- reward distributor ---------- */

  predicate RewardShaped(contract: string, t: RewardEventType, row: Row) {
    ContractText(row) == contract && EventTypeOf(row) == RewardTypeName(t)
  }

  predicate RewardLogsMap(contract: string, t: RewardEventType, logs: seq<Logged<RewardArgs>>, render: Render) {
    forall i :: 0 <= i < |logs| ==> RewardRow(t, contract, logs[i], render).Some?
  }

  /** The records one `try` block of the distributor contributes for type `t`. */
  function RewardBlock(contract: string, t: RewardEventType, chain: Chain, render: Render): (r: seq<Row>)
    ensures forall i :: 0 <= i < |r| ==> RewardShaped(contract, t, r[i])
  {
    match chain.rewardEvents(t)
    case None => []
    case Some(logs) =>
      match MapAll(logs, log => RewardRow(t, contract, log, render))
      case None => []
      case Some(rows) => rows
  }

  /** What one `try` block of the distributor keeps: every log mapped, or nothing. */
  lemma RewardBlockContents(contract: string, t: RewardEventType, chain: Chain, render: Render)
    ensures chain.rewardEvents(t).None? ==> RewardBlock(contract, t, chain, render) == []
    ensures chain.rewardEvents(t).Some? && !RewardLogsMap(contract, t, chain.rewardEvents(t).value, render) ==>
      RewardBlock(contract, t, chain, render) == []
    ensures chain.rewardEvents(t).Some? && RewardLogsMap(contract, t, chain.rewardEvents(t).value, render) ==>
      && |RewardBlock(contract, t, chain, render)| == |chain.rewardEvents(t).value|
      && forall i :: 0 <= i < |RewardBlock(contract, t, chain, render)| ==>
           RewardRow(t, contract, chain.rewardEvents(t).value[i], render) == Some(RewardBlock(contract, t, chain, render)[i])
  {
  }

  /** The loop over the three reward event types, from the `k`-th on. */
  function RewardsFrom(contract: string, k: nat, chain: Chain, render: Render): (r: seq<Row>)
    requires k <= |RewardEventTypes|
    ensures forall i :: 0 <= i < |r| ==> ContractText(r[i]) == contract && EventTypeOf(r[i]) in RewardNames()
    decreases |RewardEventTypes| - k
  {
    if k == |RewardEventTypes| then []
    else
      assert RewardNames()[k] == RewardTypeName(RewardEventTypes[k]);
      RewardBlock(contract, RewardEventTypes[k], chain, render) + RewardsFrom(contract, k + 1, chain, render)
  }

  /** `exportRewardDistributorEvents`: every query is inside its `try`, so it never rejects. */
  function RewardEvents(addresses: Addresses, chain: Chain, render: Render): (r: seq<Row>)
    ensures !Configured(addresses.rewardDistributor) ==> r == []
    ensures forall i :: 0 <= i < |r| ==>
      ContractText(r[i]) == addresses.rewardDistributor && EventTypeOf(r[i]) in RewardNames()
    ensures Ordered(r, row => RewardRankOfName(EventTypeOf(row)))
    ensures Configured(addresses.rewardDistributor) ==> r == RewardsFrom(addresses.rewardDistributor, 0, chain, render)
  {
    if !Configured(addresses.rewardDistributor) then []
    else
      RewardsFromOrdered(addresses.rewardDistributor, 0, chain, render);
      RewardsFrom(addresses.rewardDistributor, 0, chain, render)
  }

  /* ---------- the merge in main ---------- */

  /** The exporter of the identity binder or of the factory rejects. */
  predicate ExportRejects(addresses: Addresses, chain: Chain) {
    || (Configured(addresses.identityBinder) && chain.addressBound.None?)
    || (Configured(addresses.missionFactory) && (chain.missionCreated.None? || chain.missionPools.None?))
  }

  /**
   * `Promise.all` of the four exporters, concatenated identity, factory,
   * pool, reward; `None` when one of them rejects and `main` stops in its
   * `catch`.
   */
  function ExportRows(addresses: Addresses, chain: Chain, render: Render): (r: Option<seq<Row>>)
    ensures r.None? <==> ExportRejects(addresses, chain)
    ensures r.Some? ==>
      r.value == IdentityEvents(addresses, chain, render).value + FactoryEvents(addresses, chain, render).value
                 + PoolEvents(addresses, chain, render).value + RewardEvents(addresses, chain, render)
  {
    var identity := IdentityEvents(addresses, chain, render);
    var factory := FactoryEvents(addresses, chain, render);
    var pools := PoolEvents(addresses, chain, render);
    if identity.None? || factory.None? || pools.None? then None
    else Some(identity.value + factory.value + pools.value + RewardEvents(addresses, chain, render))
  }

  /** With no address configured nothing is queried and there is nothing to export. */
  lemma NothingConfiguredExportsNothing(addresses: Addresses, chain: Chain, render: Render)
    requires !Configured(addresses.identityBinder) && !Configured(addresses.missionFactory)
    requires !Configured(addresses.rewardDistributor)
    ensures ExportRows(addresses, chain, render) == Some([])
  {
  }

  /* ---------- selecting the records of one query ---------- */

  /** The records of contract `contract` and event type `name`, in order. */
  function Select(rows: seq<Row>, contract: string, name: string): (r: seq<Row>)
    ensures |r| <= |rows|
    ensures forall i :: 0 <= i < |r| ==> ContractText(r[i]) == contract && EventTypeOf(r[i]) == name
  {
    if rows == [] then []
    else if ContractText(rows[0]) == contract && EventTypeOf(rows[0]) == name then [rows[0]] + Select(rows[1..], contract, name)
    else Select(rows[1..], contract, name)
  }

  lemma {:induction false} SelectConcat(a: seq<Row>, b: seq<Row>, contract: string, name: string)
    ensures Select(a + b, contract, name) == Select(a, contract, name) + Select(b, contract, name)
  {
    if a == [] {
      assert a + b == b;
    } else {
      assert (a + b)[0] == a[0];
      assert (a + b)[1..] == a[1..] + b;
      SelectConcat(a[1..], b, contract, name);
    }
  }

  lemma {:induction false} SelectEvery(rows: seq<Row>, contract: string, name: string)
    requires forall i :: 0 <= i < |rows| ==> ContractText(rows[i]) == contract && EventTypeOf(rows[i]) == name
    ensures Select(rows, contract, name) == rows
  {
    if rows != [] {
      SelectEvery(rows[1..], contract, name);
    }
  }

  lemma {:induction false} SelectNone(rows: seq<Row>, contract: string, name: string)
    requires forall i :: 0 <= i < |rows| ==> ContractText(rows[i]) != contract || EventTypeOf(rows[i]) != name
    ensures Select(rows, contract, name) == []
  {
    if rows != [] {
      SelectNone(rows[1..], contract, name);
    }
  }

  lemma PoolTypeNamesDiffer(t: PoolEventType, u: PoolEventType)
    requires t != u
    ensures PoolTypeName(t) != PoolTypeName(u)
  {
  }

  lemma RewardTypeNamesDiffer(t: RewardEventType, u: RewardEventType)
    requires t != u
    ensures RewardTypeName(t) != RewardTypeName(u)
  {
  }

  /** Selecting type `t` of pool `pool` from one block keeps the block or nothing. */
  lemma SelectTypeBlock(q: string, u: PoolEventType, pool: string, t: PoolEventType, chain: Chain, render: Render)
    ensures Select(TypeBlock(q, u, chain, render), pool, PoolTypeName(t))
         == if q == pool && u == t then TypeBlock(q, u, chain, render) else []
  {
    var block := TypeBlock(q, u, chain, render);
    if q == pool && u == t {
      SelectEvery(block, pool, PoolTypeName(t));
    } else {
      if u != t {
        PoolTypeNamesDiffer(u, t);
      }
      forall i | 0 <= i < |block|
        ensures ContractText(block[i]) != pool || EventTypeOf(block[i]) != PoolTypeName(t)
      {
        assert PoolShaped(q, u, block[i]);
      }
      SelectNone(block, pool, PoolTypeName(t));
    }
  }

  lemma {:induction false} SelectTypesFrom(q: string, k: nat, pool: string, t: PoolEventType, chain: Chain, render: Render)
    requires k <= |PoolEventTypes|
    ensures Select(TypesFrom(q, k, chain, render), pool, PoolTypeName(t))
         == if q == pool && PoolRank(t) >= k then TypeBlock(q, t, chain, render) else []
    decreases |PoolEventTypes| - k
  {
    if k < |PoolEventTypes| {
      var u := PoolEventTypes[k];
      var block := TypeBlock(q, u, chain, render);
      var rest := TypesFrom(q, k + 1, chain, render);
      var name := PoolTypeName(t);
      assert TypesFrom(q, k, chain, render) == block + rest;
      SelectConcat(block, rest, pool, name);
      SelectTypeBlock(q, u, pool, t, chain, render);
      SelectTypesFrom(q, k + 1, pool, t, chain, render);
      var fromBlock := Select(block, pool, name);
      var fromRest := Select(rest, pool, name);
      if q == pool && u == t {
        assert PoolRank(t) == k;
        assert fromBlock == block && fromRest == [];
        assert fromBlock + fromRest == block;
      } else if q == pool {
        assert PoolRank(t) != k;
        assert fromBlock == [];
        assert fromBlock + fromRest == fromRest;
      } else {
        assert fromBlock == [] && fromRest == [];
      }
    }
  }

  /** No entry is listed twice. */
  predicate Distinct(names: seq<string>) {
    forall i, j :: 0 <= i < j < |names| ==> names[i] != names[j]
  }

  lemma {:induction false} SelectPoolsFrom(pools: seq<string>, n: nat, pool: string, t: PoolEventType, chain: Chain, render: Render)
    requires n <= |pools| && Distinct(pools)
    ensures Select(PoolsFrom(pools, n, chain, render), pool, PoolTypeName(t))
         == if n <= IndexOf(pools, pool) < |pools| then TypeBlock(pool, t, chain, render) else []
    decreases |pools| - n
  {
    if n < |pools| {
      var q := pools[n];
      SelectConcat(TypesFrom(q, 0, chain, render), PoolsFrom(pools, n + 1, chain, render), pool, PoolTypeName(t));
      SelectTypesFrom(q, 0, pool, t, chain, render);
      SelectPoolsFrom(pools, n + 1, pool, t, chain, render);
      if q == pool {
        IndexOfDistinct(pools, n);
      }
    }
  }

  /**
   * Per-type isolation in the pool exporter: the records of pool `pool` and
   * type `t` in the output are exactly what that one query contributes, so
   * a failing query removes its own records and no others.
   */
  lemma PoolTypeIsIsolated(pools: seq<string>, pool: string, t: PoolEventType, chain: Chain, render: Render)
    requires Distinct(pools)
    ensures Select(PoolsFrom(pools, 0, chain, render), pool, PoolTypeName(t))
         == if pool in pools then TypeBlock(pool, t, chain, render) else []
  {
    SelectPoolsFrom(pools, 0, pool, t, chain, render);
    if pool in pools {
      var j :| 0 <= j < |pools| && pools[j] == pool;
      assert IndexOf(pools, pool) <= j;
    }
  }

  lemma SelectRewardBlock(contract: string, u: RewardEventType, t: RewardEventType, chain: Chain, render: Render)
    ensures Select(RewardBlock(contract, u, chain, render), contract, RewardTypeName(t))
         == if u == t then RewardBlock(contract, u, chain, render) else []
  {
    var block := RewardBlock(contract, u, chain, render);
    if u == t {
      SelectEvery(block, contract, RewardTypeName(t));
    } else {
      RewardTypeNamesDiffer(u, t);
      forall i | 0 <= i < |block|
        ensures EventTypeOf(block[i]) != RewardTypeName(t)
      {
        assert RewardShaped(contract, u, block[i]);
      }
      SelectNone(block, contract, RewardTypeName(t));
    }
  }

  lemma {:induction false} SelectRewardsFrom(contract: string, k: nat, t: RewardEventType, chain: Chain, render: Render)
    requires k <= |RewardEventTypes|
    ensures Select(RewardsFrom(contract, k, chain, render), contract, RewardTypeName(t))
         == if RewardRank(t) >= k then RewardBlock(contract, t, chain, render) else []
    decreases |RewardEventTypes| - k
  {
    if k < |RewardEventTypes| {
      var u := RewardEventTypes[k];
      SelectConcat(RewardBlock(contract, u, chain, render), RewardsFrom(contract, k + 1, chain, render), contract, RewardTypeName(t));
      SelectRewardBlock(contract, u, t, chain, render);
      SelectRewardsFrom(contract, k + 1, t, chain, render);
    }
  }

  /** Per-type isolation in the reward exporter. */
  lemma RewardTypeIsIsolated(addresses: Addresses, t: RewardEventType, chain: Chain, render: Render)
    requires Configured(addresses.rewardDistributor)
    ensures Select(RewardEvents(addresses, chain, render), addresses.rewardDistributor, RewardTypeName(t))
         == RewardBlock(addresses.rewardDistributor, t, chain, render)
  {
    SelectRewardsFrom(addresses.rewardDistributor, 0, t, chain, render);
  }

  /* ---------- output order ---------- */

  /** `rows` is sorted by `key`. */
  predicate Ordered(rows: seq<Row>, key: Row -> int) {
    forall i, j :: 0 <= i < j < |rows| ==> key(rows[i]) <= key(rows[j])
  }

  /** Every record of `rows` has a key in `lo..hi`. */
  predicate KeysWithin(rows: seq<Row>, key: Row -> int, lo: int, hi: int) {
    forall i :: 0 <= i < |rows| ==> lo <= key(rows[i]) <= hi
  }

  lemma OrderedConcat(a: seq<Row>, b: seq<Row>, key: Row -> int, mid: int)
    requires Ordered(a, key) && Ordered(b, key)
    requires forall i :: 0 <= i < |a| ==> key(a[i]) <= mid
    requires forall i :: 0 <= i < |b| ==> mid <= key(b[i])
    ensures Ordered(a + b, key)
  {
    var ab := a + b;
    forall i, j | 0 <= i < j < |ab|
      ensures key(ab[i]) <= key(ab[j])
    {
      if j < |a| {
        assert ab[i] == a[i] && ab[j] == a[j];
      } else if i >= |a| {
        assert ab[i] == b[i - |a|] && ab[j] == b[j - |a|];
      } else {
        assert ab[i] == a[i] && ab[j] == b[j - |a|];
      }
    }
  }

  /** The first position of `s` in `names`, or `|names|`. */
  function IndexOf(names: seq<string>, s: string): (n: nat)
    ensures n <= |names|
    ensures n < |names| ==> names[n] == s
    ensures forall j :: 0 <= j < n ==> names[j] != s
  {
    if names == [] then 0
    else if names[0] == s then 0
    else 1 + IndexOf(names[1..], s)
  }

  lemma IndexOfDistinct(names: seq<string>, n: nat)
    requires Distinct(names) && n < |names|
    ensures IndexOf(names, names[n]) == n
  {
  }

  /** The pool event names in query order. */
  function PoolNames(): seq<string> {
    seq(|PoolEventTypes|, i requires 0 <= i < |PoolEventTypes| => PoolTypeName(PoolEventTypes[i]))
  }

  lemma PoolNamesAreDistinct()
    ensures Distinct(PoolNames())
  {
    forall i, j | 0 <= i < j < |PoolNames()|
      ensures PoolNames()[i] != PoolNames()[j]
    {
      PoolTypeNamesDiffer(PoolEventTypes[i], PoolEventTypes[j]);
    }
  }

  /** The query position of a pool event name; 5 for any other name. */
  function PoolRankOfName(name: string): (k: nat)
    ensures k <= |PoolEventTypes|
  {
    IndexOf(PoolNames(), name)
  }

  lemma PoolRankOfTypeName(t: PoolEventType)
    ensures PoolRankOfName(PoolTypeName(t)) == PoolRank(t)
  {
    PoolNamesAreDistinct();
    IndexOfDistinct(PoolNames(), PoolRank(t));
  }

  /**
   * Where a record sits in the pool exporter's output: its pool's position
   * in `getMissionPools`, then its event type's position in the query order.
   */
  function PoolPosition(pools: seq<string>, row: Row): int {
    IndexOf(pools, ContractText(row)) * |PoolEventTypes| + PoolRankOfName(EventTypeOf(row))
  }

  lemma {:induction false} TypesFromOrdered(pools: seq<string>, n: nat, k: nat, chain: Chain, render: Render)
    requires Distinct(pools) && n < |pools| && k <= |PoolEventTypes|
    ensures Ordered(TypesFrom(pools[n], k, chain, render), row => PoolPosition(pools, row))
    ensures KeysWithin(TypesFrom(pools[n], k, chain, render), row => PoolPosition(pools, row),
                       n * |PoolEventTypes| + k, n * |PoolEventTypes| + |PoolEventTypes| - 1)
    decreases |PoolEventTypes| - k
  {
    if k < |PoolEventTypes| {
      var key := row => PoolPosition(pools, row);
      var base := n * |PoolEventTypes|;
      var block := TypeBlock(pools[n], PoolEventTypes[k], chain, render);
      var rest := TypesFrom(pools[n], k + 1, chain, render);
      TypeBlockPosition(pools, n, k, chain, render);
      TypesFromOrdered(pools, n, k + 1, chain, render);
      OrderedConcat(block, rest, key, base + k);
      KeysWithinConcat(block, rest, key, base + k, base + |PoolEventTypes| - 1);
    }
  }

  /** Every record of the `k`-th query of the `n`-th pool sits at position `n * 5 + k`. */
  lemma TypeBlockPosition(pools: seq<string>, n: nat, k: nat, chain: Chain, render: Render)
    requires Distinct(pools) && n < |pools| && k < |PoolEventTypes|
    ensures var block := TypeBlock(pools[n], PoolEventTypes[k], chain, render);
            forall i :: 0 <= i < |block| ==> PoolPosition(pools, block[i]) == n * |PoolEventTypes| + k
  {
    var t := PoolEventTypes[k];
    var block := TypeBlock(pools[n], t, chain, render);
    IndexOfDistinct(pools, n);
    PoolRankOfTypeName(t);
    forall i | 0 <= i < |block|
      ensures PoolPosition(pools, block[i]) == n * |PoolEventTypes| + k
    {
      assert PoolShaped(pools[n], t, block[i]);
    }
  }

  lemma {:induction false} PoolsFromOrdered(pools: seq<string>, n: nat, chain: Chain, render: Render)
    requires Distinct(pools) && n <= |pools|
    ensures Ordered(PoolsFrom(pools, n, chain, render), row => PoolPosition(pools, row))
    ensures KeysWithin(PoolsFrom(pools, n, chain, render), row => PoolPosition(pools, row),
                       n * |PoolEventTypes|, |pools| * |PoolEventTypes|)
    decreases |pools| - n
  {
    if n < |pools| {
      var key := row => PoolPosition(pools, row);
      var here := TypesFrom(pools[n], 0, chain, render);
      var rest := PoolsFrom(pools, n + 1, chain, render);
      TypesFromOrdered(pools, n, 0, chain, render);
      PoolsFromOrdered(pools, n + 1, chain, render);
      var mid := n * |PoolEventTypes| + |PoolEventTypes| - 1;
      assert KeysWithin(here, key, n * |PoolEventTypes|, mid);
      assert KeysWithin(rest, key, mid + 1, |pools| * |PoolEventTypes|);
      OrderedConcat(here, rest, key, mid);
      KeysWithinConcat(here, rest, key, n * |PoolEventTypes|, |pools| * |PoolEventTypes|);
    }
  }

  lemma KeysWithinConcat(a: seq<Row>, b: seq<Row>, key: Row -> int, lo: int, hi: int)
    requires forall i :: 0 <= i < |a| ==> lo <= key(a[i]) <= hi
    requires forall i :: 0 <= i < |b| ==> lo <= key(b[i]) <= hi
    ensures KeysWithin(a + b, key, lo, hi)
  {
    var ab := a + b;
    forall i | 0 <= i < |ab|
      ensures lo <= key(ab[i]) <= hi
    {
      if i < |a| {
        assert ab[i] == a[i];
      } else {
        assert ab[i] == b[i - |a|];
      }
    }
  }

  /**
   * The pool exporter's output runs pool by pool in `getMissionPools` order
   * and, within a pool, Deposit, MissedDeposit, MissionCompleted, Withdrawal,
   * UserJoined.
   */
  lemma PoolRowsAreOrdered(pools: seq<string>, chain: Chain, render: Render)
    requires Distinct(pools)
    ensures Ordered(PoolsFrom(pools, 0, chain, render), row => PoolPosition(pools, row))
  {
    PoolsFromOrdered(pools, 0, chain, render);
  }

  /** The reward event names in query order. */
  function RewardNames(): seq<string> {
    seq(|RewardEventTypes|, i requires 0 <= i < |RewardEventTypes| => RewardTypeName(RewardEventTypes[i]))
  }

  lemma RewardNamesAreDistinct()
    ensures Distinct(RewardNames())
  {
    forall i, j | 0 <= i < j < |RewardNames()|
      ensures RewardNames()[i] != RewardNames()[j]
    {
      RewardTypeNamesDiffer(RewardEventTypes[i], RewardEventTypes[j]);
    }
  }

  /** The query position of a reward event name; 3 for any other name. */
  function RewardRankOfName(name: string): (k: nat)
    ensures k <= |RewardEventTypes|
  {
    IndexOf(RewardNames(), name)
  }

  lemma RewardRankOfTypeName(t: RewardEventType)
    ensures RewardRankOfName(RewardTypeName(t)) == RewardRank(t)
  {
    RewardNamesAreDistinct();
    IndexOfDistinct(RewardNames(), RewardRank(t));
  }

  lemma {:induction false} RewardsFromOrdered(contract: string, k: nat, chain: Chain, render: Render)
    requires k <= |RewardEventTypes|
    ensures Ordered(RewardsFrom(contract, k, chain, render), row => RewardRankOfName(EventTypeOf(row)))
    ensures forall i :: 0 <= i < |RewardsFrom(contract, k, chain, render)| ==>
      k <= RewardRankOfName(EventTypeOf(RewardsFrom(contract, k, chain, render)[i]))
    decreases |RewardEventTypes| - k
  {
    if k < |RewardEventTypes| {
      var key := row => RewardRankOfName(EventTypeOf(row));
      var t := RewardEventTypes[k];
      var block := RewardBlock(contract, t, chain, render);
      RewardRankOfTypeName(t);
      forall i | 0 <= i < |block|
        ensures key(block[i]) == k
      {
        assert RewardShaped(contract, t, block[i]);
      }
      RewardsFromOrdered(contract, k + 1, chain, render);
      OrderedConcat(block, RewardsFrom(contract, k + 1, chain, render), key, k);
    }
  }

  /** Which exporter emits records of event type `name`: 0 identity, 1 factory, 2 pools, 3 rewards. */
  function Family(name: string): nat {
    if name == AddressBoundName then 0
    else if name == MissionCreatedName then 1
    else if PoolRankOfName(name) < |PoolEventTypes| then 2
    else if RewardRankOfName(name) < |RewardEventTypes| then 3
    else 4
  }

  lemma PoolNamesAreFamilyTwo(t: PoolEventType)
    ensures Family(PoolTypeName(t)) == 2
  {
    assert PoolTypeName(t) != AddressBoundName && PoolTypeName(t) != MissionCreatedName;
    PoolRankOfTypeName(t);
  }

  lemma RewardNamesAreFamilyThree(t: RewardEventType)
    ensures Family(RewardTypeName(t)) == 3
  {
    assert RewardTypeName(t) != AddressBoundName && RewardTypeName(t) != MissionCreatedName;
    RewardRankOfTypeName(t);
    PoolNamesAreDistinct();
    assert RewardTypeName(t) !in PoolNames();
  }

  lemma {:induction false} TypesFromFamily(pool: string, k: nat, chain: Chain, render: Render)
    requires k <= |PoolEventTypes|
    ensures KeysWithin(TypesFrom(pool, k, chain, render), row => Family(EventTypeOf(row)), 2, 2)
    decreases |PoolEventTypes| - k
  {
    if k < |PoolEventTypes| {
      var key := row => Family(EventTypeOf(row));
      var t := PoolEventTypes[k];
      var block := TypeBlock(pool, t, chain, render);
      PoolNamesAreFamilyTwo(t);
      forall i | 0 <= i < |block|
        ensures key(block[i]) == 2
      {
        assert PoolShaped(pool, t, block[i]);
      }
      TypesFromFamily(pool, k + 1, chain, render);
      KeysWithinConcat(block, TypesFrom(pool, k + 1, chain, render), key, 2, 2);
    }
  }

  lemma {:induction false} PoolsFromFamily(pools: seq<string>, n: nat, chain: Chain, render: Render)
    requires n <= |pools|
    ensures KeysWithin(PoolsFrom(pools, n, chain, render), row => Family(EventTypeOf(row)), 2, 2)
    decreases |pools| - n
  {
    if n < |pools| {
      TypesFromFamily(pools[n], 0, chain, render);
      PoolsFromFamily(pools, n + 1, chain, render);
      KeysWithinConcat(TypesFrom(pools[n], 0, chain, render), PoolsFrom(pools, n + 1, chain, render),
                       row => Family(EventTypeOf(row)), 2, 2);
    }
  }

  lemma RewardsFromFamily(contract: string, k: nat, chain: Chain, render: Render)
    requires k <= |RewardEventTypes|
    ensures KeysWithin(RewardsFrom(contract, k, chain, render), row => Family(EventTypeOf(row)), 3, 3)
  {
    var r := RewardsFrom(contract, k, chain, render);
    forall i | 0 <= i < |r|
      ensures Family(EventTypeOf(r[i])) == 3
    {
      var j :| 0 <= j < |RewardNames()| && RewardNames()[j] == EventTypeOf(r[i]);
      RewardNamesAreFamilyThree(RewardEventTypes[j]);
    }
  }

  lemma ConstantKeyIsOrdered(rows: seq<Row>, key: Row -> int, c: int)
    requires KeysWithin(rows, key, c, c)
    ensures Ordered(rows, key)
  {
  }

  /** Two ordered runs whose keys lie in adjacent bands make one ordered run spanning both bands. */
  lemma ConcatBands(a: seq<Row>, b: seq<Row>, key: Row -> int, lo: int, mid: int, hi: int)
    requires lo <= mid <= hi
    requires Ordered(a, key) && KeysWithin(a, key, lo, mid)
    requires Ordered(b, key) && KeysWithin(b, key, mid, hi)
    ensures Ordered(a + b, key) && KeysWithin(a + b, key, lo, hi)
  {
    OrderedConcat(a, b, key, mid);
    KeysWithinConcat(a, b, key, lo, hi);
  }

  lemma IdentityFamily(addresses: Addresses, chain: Chain, render: Render)
    requires IdentityEvents(addresses, chain, render).Some?
    ensures KeysWithin(IdentityEvents(addresses, chain, render).value, row => Family(EventTypeOf(row)), 0, 0)
  {
  }

  lemma FactoryFamily(addresses: Addresses, chain: Chain, render: Render)
    requires FactoryEvents(addresses, chain, render).Some?
    ensures KeysWithin(FactoryEvents(addresses, chain, render).value, row => Family(EventTypeOf(row)), 1, 1)
  {
    assert MissionCreatedName != AddressBoundName;
  }

  lemma PoolEventsFamily(addresses: Addresses, chain: Chain, render: Render)
    requires PoolEvents(addresses, chain, render).Some?
    ensures KeysWithin(PoolEvents(addresses, chain, render).value, row => Family(EventTypeOf(row)), 2, 2)
  {
    if Configured(addresses.missionFactory) {
      PoolsFromFamily(chain.missionPools.value, 0, chain, render);
    }
  }

  lemma RewardEventsFamily(addresses: Addresses, chain: Chain, render: Render)
    ensures KeysWithin(RewardEvents(addresses, chain, render), row => Family(EventTypeOf(row)), 3, 3)
  {
    if Configured(addresses.rewardDistributor) {
      RewardsFromFamily(addresses.rewardDistributor, 0, chain, render);
    }
  }

  /**
   * The merged list puts every identity record before every factory record,
   * those before every pool record, and those before every reward record.
   */
  lemma ExportIsOrderedByFamily(addresses: Addresses, chain: Chain, render: Render)
    requires ExportRows(addresses, chain, render).Some?
    ensures Ordered(ExportRows(addresses, chain, render).value, row => Family(EventTypeOf(row)))
  {
    var key := row => Family(EventTypeOf(row));
    var identity := IdentityEvents(addresses, chain, render).value;
    var factory := FactoryEvents(addresses, chain, render).value;
    var pools := PoolEvents(addresses, chain, render).value;
    var rewards := RewardEvents(addresses, chain, render);
    IdentityFamily(addresses, chain, render);
    FactoryFamily(addresses, chain, render);
    PoolEventsFamily(addresses, chain, render);
    RewardEventsFamily(addresses, chain, render);
    ConstantKeyIsOrdered(identity, key, 0);
    ConstantKeyIsOrdered(factory, key, 1);
    ConstantKeyIsOrdered(pools, key, 2);
    ConstantKeyIsOrdered(rewards, key, 3);
    ConcatBands(identity, factory, key, 0, 1, 1);
    ConcatBands(identity + factory, pools, key, 0, 2, 2);
    ConcatBands(identity + factory + pools, rewards, key, 0, 3, 3);
  }
}

=== FILE: analytics_rows.dfy ===
/**
 * The row mappers of the analytics export: each decoded contract event
 * becomes one flat CSV record keyed by column id. Amount formatting
 * (`ethers.formatEther`), decimal rendering of integers (`toString`) and ISO
 * date rendering (`toISOString`) are opaque functions handed in as a `Render`.
 */
module AnalyticsRows {
  import opened Options

  /** The record keys, one per CSV column; `Id` is the key's spelling in the record and the header. */
  datatype Key =
    | EventType | ContractAddress | MissionPool | User
    | LineIdHash | UserAddress | Creator | TargetAmount
    | CadenceSeconds | DurationSeconds | AssetAddress | YieldStrategy
    | RewardDistributor | Amount | NewStreak | TotalDeposited
    | PreviousStreak | FinalStreak | RemainingBalance | BaseReward
    | BonusReward | TotalReward | TotalParticipants | TotalYield
    | Timestamp | BlockNumber | TransactionHash

  function Id(k: Key): string {
    match k
    case EventType => "event_type"
    case ContractAddress => "contract_address"
    case MissionPool => "mission_pool"
    case User => "user"
    case LineIdHash => "line_id_hash"
    case UserAddress => "user_address"
    case Creator => "creator"
    case TargetAmount => "target_amount"
    case CadenceSeconds => "cadence_seconds"
    case DurationSeconds => "duration_seconds"
    case AssetAddress => "asset_address"
    case YieldStrategy => "yield_strategy"
    case RewardDistributor => "reward_distributor"
    case Amount => "amount"
    case NewStreak => "new_streak"
    case TotalDeposited => "total_deposited"
    case PreviousStreak => "previous_streak"
    case FinalStreak => "final_streak"
    case RemainingBalance => "remaining_balance"
    case BaseReward => "base_reward"
    case BonusReward => "bonus_reward"
    case TotalReward => "total_reward"
    case TotalParticipants => "total_participants"
    case TotalYield => "total_yield"
    case Timestamp => "timestamp"
    case BlockNumber => "block_number"
    case TransactionHash => "transaction_hash"
  }

  /** Length, first and last character of a non-empty string. */
  function Signature(id: string): (int, char, char)
    requires id != ""
  {
    (|id|, id[0], id[|id| - 1])
  }

  /** The key whose id has signature `sig`, if any. */
  function KeyOfSignature(sig: (int, char, char)): Option<Key> {
    match sig
    case (10, 'e', 'e') => Some(EventType)
    case (16, 'c', 's') => Some(ContractAddress)
    case (12, 'm', 'l') => Some(MissionPool)
    case (4, 'u', 'r') => Some(User)
    case (12, 'l', 'h') => Some(LineIdHash)
    case (12, 'u', 's') => Some(UserAddress)
    case (7, 'c', 'r') => Some(Creator)
    case (13, 't', 't') => Some(TargetAmount)
    case (15, 'c', 's') => Some(CadenceSeconds)
    case (16, 'd', 's') => Some(DurationSeconds)
    case (13, 'a', 's') => Some(AssetAddress)
    case (14, 'y', 'y') => Some(YieldStrategy)
    case (18, 'r', 'r') => Some(RewardDistributor)
    case (6, 'a', 't') => Some(Amount)
    case (10, 'n', 'k') => Some(NewStreak)
    case (15, 't', 'd') => Some(TotalDeposited)
    case (15, 'p', 'k') => Some(PreviousStreak)
    case (12, 'f', 'k') => Some(FinalStreak)
    case (17, 'r', 'e') => Some(RemainingBalance)
    case (11, 'b', 'd') => Some(BaseReward)
    case (12, 'b', 'd') => Some(BonusReward)
    case (12, 't', 'd') => Some(TotalReward)
    case (18, 't', 's') => Some(TotalParticipants)
    case (11, 't', 'd') => Some(TotalYield)
    case (9, 't', 'p') => Some(Timestamp)
    case (12, 'b', 'r') => Some(BlockNumber)
    case (16, 't', 'h') => Some(TransactionHash)
    case _ => None
  }

  /** The signature of a key's id leads back to the key. */
  lemma SignatureNamesKey(k: Key)
    ensures Id(k) != "" && KeyOfSignature(Signature(Id(k))) == Some(k)
  {
    match k
    case EventType => {}
    case ContractAddress => {}
    case MissionPool => {}
    case User => {}
    case LineIdHash => {}
    case UserAddress => {}
    case Creator => {}
    case TargetAmount => {}
    case CadenceSeconds => {}
    case DurationSeconds => {}
    case AssetAddress => {}
    case YieldStrategy => {}
    case RewardDistributor => {}
    case Amount => {}
    case NewStreak => {}
    case TotalDeposited => {}
    case PreviousStreak => {}
    case FinalStreak => {}
    case RemainingBalance => {}
    case BaseReward => {}
    case BonusReward => {}
    case TotalReward => {}
    case TotalParticipants => {}
    case TotalYield => {}
    case Timestamp => {}
    case BlockNumber => {}
    case TransactionHash => {}
  }

  /** No two record keys share an id. */
  lemma IdIsInjective(a: Key, b: Key)
    requires Id(a) == Id(b)
    ensures a == b
  {
    SignatureNamesKey(a);
    SignatureNamesKey(b);
  }

  /** A record value: a string, or a JavaScript number (`block_number`). */
  datatype Cell = Text(text: string) | Number(number: int)

  /** JavaScript truthiness of a value. */
  predicate Truthy(c: Cell) {
    match c
    case Text(s) => s != ""
    case Number(n) => n != 0
  }

  /**
   * One exported event: the record, and the timestamp in seconds from which
   * its `timestamp` column is rendered (the summary's date range compares
   * these instants).
   */
  datatype Row = Row(fields: map<Key, Cell>, seconds: int)

  datatype Render = Render(formatEther: int -> string, decimal: int -> string, isoDate: int -> string)

  /** A log returned by `queryFilter`: its decoded arguments plus where it was mined. */
  datatype Logged<A> = Logged(args: A, blockNumber: int, transactionHash: string)

  datatype IdentityArgs = AddressBound(lineIdHash: string, userAddress: string, timestamp: int)

  datatype FactoryArgs = MissionCreated(
    missionPool: string, creator: string, targetAmount: int, cadence: int, duration: int,
    asset: string, yieldStrategy: string, rewardDistributor: string, timestamp: int)

  /** The five mission-pool events, in the order they are queried. */
  datatype PoolEventType = Deposit | MissedDeposit | MissionCompleted | Withdrawal | UserJoined

  const PoolEventTypes: seq<PoolEventType> := [Deposit, MissedDeposit, MissionCompleted, Withdrawal, UserJoined]

  /** A pool event type's position in the query order. */
  function PoolRank(t: PoolEventType): (k: nat)
    ensures k < |PoolEventTypes| && PoolEventTypes[k] == t
    ensures forall j :: 0 <= j < |PoolEventTypes| && PoolEventTypes[j] == t ==> j == k
  {
    match t
    case Deposit => 0
    case MissedDeposit => 1
    case MissionCompleted => 2
    case Withdrawal => 3
    case UserJoined => 4
  }

  /** Decoded mission-pool event arguments; every pool event has `user` and `timestamp`. */
  datatype PoolArgs =
    | DepositArgs(user: string, amount: int, newStreak: int, totalDeposited: int, timestamp: int)
    | MissedDepositArgs(user: string, previousStreak: int, timestamp: int)
    | MissionCompletedArgs(user: string, totalDeposited: int, finalStreak: int, timestamp: int)
    | WithdrawalArgs(user: string, amount: int, remainingBalance: int, timestamp: int)
    | UserJoinedArgs(user: string, timestamp: int)

  /** The three reward-distributor events, in the order they are queried. */
  datatype RewardEventType = RewardSettled | TreasuryFee | MissionSettled

  const RewardEventTypes: seq<RewardEventType> := [RewardSettled, TreasuryFee, MissionSettled]

  /** A reward event type's position in the query order. */
  function RewardRank(t: RewardEventType): (k: nat)
    ensures k < |RewardEventTypes| && RewardEventTypes[k] == t
    ensures forall j :: 0 <= j < |RewardEventTypes| && RewardEventTypes[j] == t ==> j == k
  {
    match t
    case RewardSettled => 0
    case TreasuryFee => 1
    case MissionSettled => 2
  }

  /** Decoded reward-distributor event arguments; every one has `missionPool` and `timestamp`. */
  datatype RewardArgs =
    | RewardSettledArgs(missionPool: string, user: string, baseReward: int, bonusReward: int, totalReward: int, timestamp: int)
    | TreasuryFeeArgs(missionPool: string, amount: int, timestamp: int)
    | MissionSettledArgs(missionPool: string, totalParticipants: int, totalDeposited: int, totalYield: int, timestamp: int)

  function PoolTypeName(t: PoolEventType): string {
    match t
    case Deposit => "Deposit"
    case MissedDeposit => "MissedDeposit"
    case MissionCompleted => "MissionCompleted"
    case Withdrawal => "Withdrawal"
    case UserJoined => "UserJoined"
  }

  function RewardTypeName(t: RewardEventType): string {
    match t
    case RewardSettled => "RewardSettled"
    case TreasuryFee => "TreasuryFee"
    case MissionSettled => "MissionSettled"
  }

  const AddressBoundName: string := "AddressBound"
  const MissionCreatedName: string := "MissionCreated"

  /** The record's `event_type`, as the summary reads it (`undefined` when missing). */
  function EventTypeOf(row: Row): string {
    if EventType in row.fields && row.fields[EventType].Text? then row.fields[EventType].text
    else "undefined"
  }

  /** The columns every record carries. */
  const CommonKeys: set<Key> := {EventType, ContractAddress, Timestamp, BlockNumber, TransactionHash}

  const IdentityKeys: set<Key> := CommonKeys + {LineIdHash, UserAddress}

  const FactoryKeys: set<Key> := CommonKeys + {
    MissionPool, Creator, TargetAmount, CadenceSeconds, DurationSeconds,
    AssetAddress, YieldStrategy, RewardDistributor}

  const PoolBaseKeys: set<Key> := CommonKeys + {User}

  function PoolExtraKeys(t: PoolEventType): set<Key> {
    match t
    case Deposit => {Amount, NewStreak, TotalDeposited}
    case MissedDeposit => {PreviousStreak}
    case MissionCompleted => {TotalDeposited, FinalStreak}
    case Withdrawal => {Amount, RemainingBalance}
    case UserJoined => {}
  }

  const RewardBaseKeys: set<Key> := CommonKeys + {MissionPool}

  function RewardExtraKeys(t: RewardEventType): set<Key> {
    match t
    case RewardSettled => {User, BaseReward, BonusReward, TotalReward}
    case TreasuryFee => {Amount}
    case MissionSettled => {TotalParticipants, TotalDeposited, TotalYield}
  }

  /** The fields every mapper starts from; `seconds * 1000` is the `Date` argument in milliseconds. */
  function CommonFields<A>(eventType: string, contract: string, seconds: int, log: Logged<A>, render: Render): (m: map<Key, Cell>)
    ensures m.Keys == CommonKeys
    ensures m[EventType] == Text(eventType) && m[ContractAddress] == Text(contract)
  {
    map[
      EventType := Text(eventType),
      ContractAddress := Text(contract),
      Timestamp := Text(render.isoDate(seconds * 1000)),
      BlockNumber := Number(log.blockNumber),
      TransactionHash := Text(log.transactionHash)]
  }

  /** An `AddressBound` event of the identity binder. */
  function IdentityRow(contract: string, log: Logged<IdentityArgs>, render: Render): (r: Row)
    ensures r.fields.Keys == IdentityKeys
    ensures EventTypeOf(r) == AddressBoundName
    ensures r.fields[ContractAddress] == Text(contract)
    ensures r.fields[UserAddress] == Text(log.args.userAddress)
    ensures r.fields[LineIdHash] == Text(log.args.lineIdHash)
    ensures r.seconds == log.args.timestamp
  {
    var base := CommonFields(AddressBoundName, contract, log.args.timestamp, log, render);
    Row(base[LineIdHash := Text(log.args.lineIdHash)][UserAddress := Text(log.args.userAddress)],
        log.args.timestamp)
  }

  /** The factory-specific columns of a `MissionCreated` record. */
  function FactoryExtras(a: FactoryArgs, render: Render): (m: map<Key, Cell>)
    ensures m.Keys == FactoryKeys - CommonKeys
  {
    map[
      MissionPool := Text(a.missionPool),
      Creator := Text(a.creator),
      TargetAmount := Text(render.formatEther(a.targetAmount)),
      CadenceSeconds := Text(render.decimal(a.cadence)),
      DurationSeconds := Text(render.decimal(a.duration)),
      AssetAddress := Text(a.asset),
      YieldStrategy := Text(a.yieldStrategy),
      RewardDistributor := Text(a.rewardDistributor)]
  }

  /** A `MissionCreated` event of the mission factory. */
  function FactoryRow(contract: string, log: Logged<FactoryArgs>, render: Render): (r: Row)
    ensures r.fields.Keys == FactoryKeys
    ensures EventTypeOf(r) == MissionCreatedName
    ensures r.fields[ContractAddress] == Text(contract)
    ensures r.fields[MissionPool] == Text(log.args.missionPool)
    ensures r.fields[Creator] == Text(log.args.creator)
    ensures r.fields[TargetAmount] == Text(render.formatEther(log.args.targetAmount))
    ensures r.seconds == log.args.timestamp
  {
    var base := CommonFields(MissionCreatedName, contract, log.args.timestamp, log, render);
    Row(base + FactoryExtras(log.args, render), log.args.timestamp)
  }

  /**
   * `event.args.timestamp || event.args[4]`: a zero timestamp falls back to
   * the fifth positional argument, which only `Deposit` has (and which is its
   * timestamp); for the others `Number(undefined)` is NaN and rendering the
   * date throws.
   */
  function PoolSeconds(args: PoolArgs): (r: Option<int>)
    ensures r.Some? ==> r.value == args.timestamp
    ensures r.None? <==> args.timestamp == 0 && !args.DepositArgs?
  {
    if args.timestamp != 0 then Some(args.timestamp)
    else if args.DepositArgs? then Some(args.timestamp)
    else None
  }

  /**
   * The type-specific columns of a pool record for queried type `t`. A field
   * that the decoded arguments lack makes `formatEther` or `toString` throw;
   * `UserJoined` adds nothing and so accepts any arguments.
   */
  function PoolExtras(t: PoolEventType, args: PoolArgs, render: Render): (r: Option<map<Key, Cell>>)
    ensures r.Some? <==> t == UserJoined || PoolTypeOf(args) == t
    ensures r.Some? ==> r.value.Keys == PoolExtraKeys(t)
  {
    match t
    case Deposit =>
      if args.DepositArgs? then
        Some(map[
          Amount := Text(render.formatEther(args.amount)),
          NewStreak := Text(render.decimal(args.newStreak)),
          TotalDeposited := Text(render.formatEther(args.totalDeposited))])
      else None
    case MissedDeposit =>
      if args.MissedDepositArgs? then Some(map[PreviousStreak := Text(render.decimal(args.previousStreak))])
      else None
    case MissionCompleted =>
      if args.MissionCompletedArgs? then
        Some(map[
          TotalDeposited := Text(render.formatEther(args.totalDeposited)),
          FinalStreak := Text(render.decimal(args.finalStreak))])
      else None
    case Withdrawal =>
      if args.WithdrawalArgs? then
        Some(map[
          Amount := Text(render.formatEther(args.amount)),
          RemainingBalance := Text(render.formatEther(args.remainingBalance))])
      else None
    case UserJoined => Some(map[])
  }

  /** The event a set of decoded pool arguments belongs to. */
  function PoolTypeOf(args: PoolArgs): PoolEventType {
    match args
    case DepositArgs(_, _, _, _, _) => Deposit
    case MissedDepositArgs(_, _, _) => MissedDeposit
    case MissionCompletedArgs(_, _, _, _) => MissionCompleted
    case WithdrawalArgs(_, _, _, _) => Withdrawal
    case UserJoinedArgs(_, _) => UserJoined
  }

  /** A pool record's type-specific columns never overwrite its base columns. */
  lemma PoolExtrasKeepBase(t: PoolEventType)
    ensures PoolExtraKeys(t) !! PoolBaseKeys
  {
  }

  /** One log of a pool's `t` query; `None` when mapping it throws. */
  function PoolRow(t: PoolEventType, pool: string, log: Logged<PoolArgs>, render: Render): (r: Option<Row>)
    ensures r.Some? <==> PoolSeconds(log.args).Some? && (t == UserJoined || PoolTypeOf(log.args) == t)
    ensures r.Some? ==>
      && r.value.fields.Keys == PoolBaseKeys + PoolExtraKeys(t)
      && EventTypeOf(r.value) == PoolTypeName(t)
      && r.value.fields[ContractAddress] == Text(pool)
      && r.value.fields[User] == Text(log.args.user)
      && r.value.seconds == log.args.timestamp
  {
    match PoolSeconds(log.args)
    case None => None
    case Some(seconds) =>
      match PoolExtras(t, log.args, render)
      case None => None
      case Some(extras) =>
        var base := CommonFields(PoolTypeName(t), pool, seconds, log, render)[User := Text(log.args.user)];
        PoolExtrasKeepBase(t);
        Some(Row(base + extras, seconds))
  }

  /**
   * The type-specific columns of a reward record for queried type `t`; every
   * type reads a field only its own event has, so arguments of another
   * event make it throw.
   */
  function RewardExtras(t: RewardEventType, args: RewardArgs, render: Render): (r: Option<map<Key, Cell>>)
    ensures r.Some? <==> RewardTypeOf(args) == t
    ensures r.Some? ==> r.value.Keys == RewardExtraKeys(t)
  {
    match t
    case RewardSettled =>
      if args.RewardSettledArgs? then
        Some(map[
          User := Text(args.user),
          BaseReward := Text(render.formatEther(args.baseReward)),
          BonusReward := Text(render.formatEther(args.bonusReward)),
          TotalReward := Text(render.formatEther(args.totalReward))])
      else None
    case TreasuryFee =>
      if args.TreasuryFeeArgs? then Some(map[Amount := Text(render.formatEther(args.amount))])
      else None
    case MissionSettled =>
      if args.MissionSettledArgs? then
        Some(map[
          TotalParticipants := Text(render.decimal(args.totalParticipants)),
          TotalDeposited := Text(render.formatEther(args.totalDeposited)),
          TotalYield := Text(render.formatEther(args.totalYield))])
      else None
  }

  function RewardTypeOf(args: RewardArgs): RewardEventType {
    match args
    case RewardSettledArgs(_, _, _, _, _, _) => RewardSettled
    case TreasuryFeeArgs(_, _, _) => TreasuryFee
    case MissionSettledArgs(_, _, _, _, _) => MissionSettled
  }

  /** A reward record's type-specific columns never overwrite its base columns. */
  lemma RewardExtrasKeepBase(t: RewardEventType)
    ensures RewardExtraKeys(t) !! RewardBaseKeys
  {
  }

  /**
   * One log of the distributor's `t` query. The timestamp fallback
   * `event.args[event.args.length - 1]` is the timestamp itself, so the
   * record always carries the event's own timestamp.
   */
  function RewardRow(t: RewardEventType, contract: string, log: Logged<RewardArgs>, render: Render): (r: Option<Row>)
    ensures r.Some? <==> RewardTypeOf(log.args) == t
    ensures r.Some? ==>
      && r.value.fields.Keys == RewardBaseKeys + RewardExtraKeys(t)
      && EventTypeOf(r.value) == RewardTypeName(t)
      && r.value.fields[ContractAddress] == Text(contract)
      && r.value.fields[MissionPool] == Text(log.args.missionPool)
      && r.value.seconds == log.args.timestamp
  {
    match RewardExtras(t, log.args, render)
    case None => None
    case Some(extras) =>
      var seconds := log.args.timestamp;
      var base := CommonFields(RewardTypeName(t), contract, seconds, log, render)[MissionPool := Text(log.args.missionPool)];
      RewardExtrasKeepBase(t);
      Some(Row(base + extras, seconds))
  }

  /** The CSV header's columns in order, each named by the record key it reads. */
  const Columns: seq<Key> := [
    EventType,
    ContractAddress,
    MissionPool,
    User,
    LineIdHash,
    UserAddress,
    Creator,
    TargetAmount,
    CadenceSeconds,
    DurationSeconds,
    AssetAddress,
    YieldStrategy,
    RewardDistributor,
    Amount,
    NewStreak,
    TotalDeposited,
    PreviousStreak,
    FinalStreak,
    RemainingBalance,
    BaseReward,
    BonusReward,
    TotalReward,
    TotalParticipants,
    TotalYield,
    Timestamp,
    BlockNumber,
    TransactionHash
  ]

  /** A column's title in the CSV header. */
  function Title(k: Key): string {
    match k
    case EventType => "Event Type"
    case ContractAddress => "Contract Address"
    case MissionPool => "Mission Pool"
    case User => "User"
    case LineIdHash => "Line ID Hash"
    case UserAddress => "User Address"
    case Creator => "Creator"
    case TargetAmount => "Target Amount"
    case CadenceSeconds => "Cadence (seconds)"
    case DurationSeconds => "Duration (seconds)"
    case AssetAddress => "Asset Address"
    case YieldStrategy => "Yield Strategy"
    case RewardDistributor => "Reward Distributor"
    case Amount => "Amount"
    case NewStreak => "New Streak"
    case TotalDeposited => "Total Deposited"
    case PreviousStreak => "Previous Streak"
    case FinalStreak => "Final Streak"
    case RemainingBalance => "Remaining Balance"
    case BaseReward => "Base Reward"
    case BonusReward => "Bonus Reward"
    case TotalReward => "Total Reward"
    case TotalParticipants => "Total Participants"
    case TotalYield => "Total Yield"
    case Timestamp => "Timestamp"
    case BlockNumber => "Block Number"
    case TransactionHash => "Transaction Hash"
  }

  /** A header entry as the CSV writer receives it: `{ id, title }`. */
  datatype Column = Column(id: string, title: string)

  function Header(): seq<Column> {
    seq(|Columns|, i requires 0 <= i < |Columns| => Column(Id(Columns[i]), Title(Columns[i])))
  }

  function HeaderKeys(): set<Key> {
    set k | k in Columns
  }

  /** Every key some mapper can emit. */
  function EmittedKeys(): set<Key> {
    IdentityKeys + FactoryKeys
    + PoolBaseKeys + PoolExtraKeys(Deposit) + PoolExtraKeys(MissedDeposit)
    + PoolExtraKeys(MissionCompleted) + PoolExtraKeys(Withdrawal) + PoolExtraKeys(UserJoined)
    + RewardBaseKeys + RewardExtraKeys(RewardSettled) + RewardExtraKeys(TreasuryFee)
    + RewardExtraKeys(MissionSettled)
  }

  /** The position of a key's column in the header. */
  function ColumnIndex(k: Key): (i: nat)
    ensures i < |Columns| && Columns[i] == k
  {
    match k
    case EventType => 0
    case ContractAddress => 1
    case MissionPool => 2
    case User => 3
    case LineIdHash => 4
    case UserAddress => 5
    case Creator => 6
    case TargetAmount => 7
    case CadenceSeconds => 8
    case DurationSeconds => 9
    case AssetAddress => 10
    case YieldStrategy => 11
    case RewardDistributor => 12
    case Amount => 13
    case NewStreak => 14
    case TotalDeposited => 15
    case PreviousStreak => 16
    case FinalStreak => 17
    case RemainingBalance => 18
    case BaseReward => 19
    case BonusReward => 20
    case TotalReward => 21
    case TotalParticipants => 22
    case TotalYield => 23
    case Timestamp => 24
    case BlockNumber => 25
    case TransactionHash => 26
  }

  /**
   * The header and the mappers agree: every key a mapper emits has a column,
   * so the CSV drops no field, and every column is filled by some mapper.
   */
  lemma HeaderCoversEmittedKeys()
    ensures EmittedKeys() == HeaderKeys()
    ensures forall k: Key :: k in HeaderKeys()
  {
    EveryKeyHasColumn();
    EveryKeyIsEmitted();
    assert forall k :: k in EmittedKeys() <==> k in HeaderKeys();
  }

  lemma EveryKeyHasColumn()
    ensures forall k: Key :: k in HeaderKeys()
  {
    forall k: Key
      ensures k in HeaderKeys()
    {
      var i := ColumnIndex(k);
      assert Columns[i] in Columns;
    }
  }

  lemma EveryKeyIsEmitted()
    ensures forall k: Key :: k in EmittedKeys()
  {
    forall k: Key
      ensures k in EmittedKeys()
    {
      match k
      case EventType => assert k in CommonKeys;
      case ContractAddress => assert k in CommonKeys;
      case Timestamp => assert k in CommonKeys;
      case BlockNumber => assert k in CommonKeys;
      case TransactionHash => assert k in CommonKeys;
      case LineIdHash => assert k in IdentityKeys;
      case UserAddress => assert k in IdentityKeys;
      case MissionPool => assert k in FactoryKeys;
      case Creator => assert k in FactoryKeys;
      case TargetAmount => assert k in FactoryKeys;
      case CadenceSeconds => assert k in FactoryKeys;
      case DurationSeconds => assert k in FactoryKeys;
      case AssetAddress => assert k in FactoryKeys;
      case YieldStrategy => assert k in FactoryKeys;
      case RewardDistributor => assert k in FactoryKeys;
      case User => assert k in PoolBaseKeys;
      case Amount => assert k in PoolExtraKeys(Deposit);
      case NewStreak => assert k in PoolExtraKeys(Deposit);
      case TotalDeposited => assert k in PoolExtraKeys(Deposit);
      case PreviousStreak => assert k in PoolExtraKeys(MissedDeposit);
      case FinalStreak => assert k in PoolExtraKeys(MissionCompleted);
      case RemainingBalance => assert k in PoolExtraKeys(Withdrawal);
      case BaseReward => assert k in RewardExtraKeys(RewardSettled);
      case BonusReward => assert k in RewardExtraKeys(RewardSettled);
      case TotalReward => assert k in RewardExtraKeys(RewardSettled);
      case TotalParticipants => assert k in RewardExtraKeys(MissionSettled);
      case TotalYield => assert k in RewardExtraKeys(MissionSettled);
    }
  }

  /** No key has two columns: each column is where its key's index says. */
  lemma ColumnsAreDistinct()
    ensures forall i, j :: 0 <= i < j < |Columns| ==> Columns[i] != Columns[j]
  {
    forall i | 0 <= i < 14
      ensures ColumnIndex(Columns[i]) == i
    {
    }
    forall i | 14 <= i < |Columns|
      ensures ColumnIndex(Columns[i]) == i
    {
    }
  }

  /**
   * The header names 27 columns, each record key exactly once and under
   * its own id, so no two columns share an id.
   */
  lemma HeaderColumnsAreDistinct()
    ensures |Header()| == |Columns| == 27
    ensures forall i :: 0 <= i < |Header()| ==> Header()[i].id == Id(Columns[i])
    ensures forall i, j :: 0 <= i < j < |Columns| ==> Columns[i] != Columns[j]
    ensures forall i, j :: 0 <= i < j < |Header()| ==> Header()[i].id != Header()[j].id
  {
    ColumnsAreDistinct();
    forall i, j | 0 <= i < j < |Header()|
      ensures Header()[i].id != Header()[j].id
    {
      if Header()[i].id == Header()[j].id {
        IdIsInjective(Columns[i], Columns[j]);
      }
    }
  }

}

=== FILE: analytics_summary.dfy ===
/**
 * The summary statistics `main` writes after the CSV, and `main` itself:
 * per-type counts, distinct users and mission pools, and the date range of
 * the exported records. The single `forEach` of the script is modelled as
 * three passes, one per statistic; the statistics do not depend on each
 * other, so this computes the same summary.
 */
module AnalyticsSummary {
  import opened Options
  import opened AnalyticsRows
  import opened AnalyticsExport

  /** The earliest and latest record instant, in seconds; `None` before any record. */
  datatype DateRange = DateRange(start: Option<int>, end: Option<int>)

  datatype Summary = Summary(
    totalEvents: nat,
    eventTypes: map<string, nat>,
    uniqueUsers: nat,
    uniqueMissionPools: nat,
    dateRange: DateRange)

  /** The columns whose truthy values count as users. */
  const UserKeys: set<Key> := {User, UserAddress, Creator}

  /** The column whose truthy values count as mission pools. */
  const PoolKeys: set<Key> := {MissionPool}

  /** The event type of every record, in order. */
  function Names(rows: seq<Row>): seq<string> {
    seq(|rows|, i requires 0 <= i < |rows| => EventTypeOf(rows[i]))
  }

  /** The truthy values one record holds under `keys`. */
  function TruthyValues(row: Row, keys: set<Key>): set<Cell> {
    set k | k in keys && k in row.fields && Truthy(row.fields[k]) :: row.fields[k]
  }

  /** Every truthy value any record holds under `keys`. */
  ghost function Values(rows: seq<Row>, keys: set<Key>): set<Cell> {
    set i, k | 0 <= i < |rows| && k in keys && k in rows[i].fields && Truthy(rows[i].fields[k]) :: rows[i].fields[k]
  }

  lemma ValuesSnoc(rows: seq<Row>, row: Row, keys: set<Key>)
    ensures Values(rows + [row], keys) == Values(rows, keys) + TruthyValues(row, keys)
  {
    var all := rows + [row];
    forall c | c in Values(all, keys)
      ensures c in Values(rows, keys) + TruthyValues(row, keys)
    {
      var i, k :| 0 <= i < |all| && k in keys && k in all[i].fields && Truthy(all[i].fields[k]) && all[i].fields[k] == c;
      if i < |rows| {
        assert all[i] == rows[i];
      }
    }
    forall c | c in Values(rows, keys) + TruthyValues(row, keys)
      ensures c in Values(all, keys)
    {
      if c in Values(rows, keys) {
        var i, k :| 0 <= i < |rows| && k in keys && k in rows[i].fields && Truthy(rows[i].fields[k]) && rows[i].fields[k] == c;
        assert all[i] == rows[i];
      } else {
        var k :| k in keys && k in row.fields && Truthy(row.fields[k]) && row.fields[k] == c;
        assert all[|rows|] == row;
      }
    }
  }

  /** Picks an element of a non-empty set. */
  ghost function Pick(s: set<string>): string
    requires s != {}
  {
    var x :| x in s; x
  }

  /** The sum of a map's counts. */
  ghost function MapSum(m: map<string, nat>): nat
    decreases m.Keys
  {
    if m.Keys == {} then 0
    else
      var k := Pick(m.Keys);
      m[k] + MapSum(m - {k})
  }

  lemma {:induction false} MapSumRemove(m: map<string, nat>, k: string)
    requires k in m
    ensures MapSum(m) == m[k] + MapSum(m - {k})
    decreases m.Keys
  {
    var j := Pick(m.Keys);
    if j != k {
      MapSumRemove(m - {j}, k);
      MapSumRemove(m - {k}, j);
      assert m - {j} - {k} == m - {k} - {j};
    }
  }

  /** `counts` holds every element of `names` with its multiplicity, and nothing else. */
  ghost predicate Represents(counts: map<string, nat>, names: multiset<string>) {
    && (forall name :: name in counts <==> name in names)
    && (forall name :: name in counts ==> counts[name] == names[name])
  }

  /** `counts` holds, for every event type present, how many records have it. */
  ghost predicate TalliesTypes(counts: map<string, nat>, rows: seq<Row>) {
    Represents(counts, multiset(Names(rows)))
  }

  /** `range` spans the records' instants, reaching both ends. */
  ghost predicate SpansDates(range: DateRange, rows: seq<Row>) {
    && (range.start.Some? <==> |rows| > 0)
    && (range.end.Some? <==> |rows| > 0)
    && (range.start.Some? ==>
          && (forall i :: 0 <= i < |rows| ==> range.start.value <= rows[i].seconds)
          && (exists i :: 0 <= i < |rows| && rows[i].seconds == range.start.value))
    && (range.end.Some? ==>
          && (forall i :: 0 <= i < |rows| ==> rows[i].seconds <= range.end.value)
          && (exists i :: 0 <= i < |rows| && rows[i].seconds == range.end.value))
  }

  /** `eventTypes[t] = (eventTypes[t] || 0) + 1` for one record of type `name`. */
  function Bump(counts: map<string, nat>, name: string): (r: map<string, nat>)
    ensures r.Keys == counts.Keys + {name}
  {
    counts[name := (if name in counts then counts[name] else 0) + 1]
  }

  lemma BumpAddsOne(counts: map<string, nat>, name: string)
    ensures MapSum(Bump(counts, name)) == MapSum(counts) + 1
  {
    var bumped := Bump(counts, name);
    MapSumRemove(bumped, name);
    if name in counts {
      MapSumRemove(counts, name);
      assert bumped - {name} == counts - {name};
    } else {
      assert bumped - {name} == counts;
    }
  }

  lemma BumpRepresents(counts: map<string, nat>, names: multiset<string>, name: string)
    requires Represents(counts, names)
    ensures Represents(Bump(counts, name), names + multiset{name})
  {
    var after := names + multiset{name};
    assert after[name] == names[name] + 1;
    forall n | n != name
      ensures after[n] == names[n]
    {
    }
  }

  lemma BumpTallies(counts: map<string, nat>, rows: seq<Row>, row: Row)
    requires TalliesTypes(counts, rows)
    ensures TalliesTypes(Bump(counts, EventTypeOf(row)), rows + [row])
  {
    assert Names(rows + [row]) == Names(rows) + [EventTypeOf(row)];
    BumpRepresents(counts, multiset(Names(rows)), EventTypeOf(row));
  }

  /** The per-type counting over every record. */
  method CountTypes(rows: seq<Row>) returns (counts: map<string, nat>)
    ensures TalliesTypes(counts, rows)
    ensures MapSum(counts) == |rows|
  {
    counts := map[];
    for i := 0 to |rows|
      invariant TalliesTypes(counts, rows[..i])
      invariant MapSum(counts) == i
    {
      assert rows[..i + 1] == rows[..i] + [rows[i]];
      BumpTallies(counts, rows[..i], rows[i]);
      BumpAddsOne(counts, EventTypeOf(rows[i]));
      counts := Bump(counts, EventTypeOf(rows[i]));
    }
    assert rows[..|rows|] == rows;
  }

  /** The distinct truthy values of `keys` across the records, as the script's `Set`. */
  method CollectValues(rows: seq<Row>, keys: set<Key>) returns (values: set<Cell>)
    ensures values == Values(rows, keys)
  {
    values := {};
    for i := 0 to |rows|
      invariant values == Values(rows[..i], keys)
    {
      assert rows[..i + 1] == rows[..i] + [rows[i]];
      ValuesSnoc(rows[..i], rows[i], keys);
      values := values + TruthyValues(rows[i], keys);
    }
    assert rows[..|rows|] == rows;
  }

  /** The date-range tracking: replace `start` by an earlier instant, `end` by a later one. */
  method DateBounds(rows: seq<Row>) returns (range: DateRange)
    ensures SpansDates(range, rows)
  {
    var start: Option<int> := None;
    var end: Option<int> := None;
    for i := 0 to |rows|
      invariant SpansDates(DateRange(start, end), rows[..i])
    {
      var seconds := rows[i].seconds;
      if start.None? || seconds < start.value {
        start := Some(seconds);
      }
      if end.None? || seconds > end.value {
        end := Some(seconds);
      }
      assert rows[..i + 1][i] == rows[i];
      assert forall j :: 0 <= j < i ==> rows[..i + 1][j] == rows[..i][j];
    }
    assert rows[..|rows|] == rows;
    range := DateRange(start, end);
  }

  /** `summary` is the statistics of `rows`. */
  ghost predicate Summarises(summary: Summary, rows: seq<Row>) {
    && summary.totalEvents == |rows|
    && TalliesTypes(summary.eventTypes, rows)
    && MapSum(summary.eventTypes) == summary.totalEvents
    && summary.uniqueUsers == |Values(rows, UserKeys)|
    && summary.uniqueMissionPools == |Values(rows, PoolKeys)|
    && SpansDates(summary.dateRange, rows)
  }

  method Summarize(rows: seq<Row>) returns (summary: Summary)
    ensures Summarises(summary, rows)
  {
    var counts := CountTypes(rows);
    var users := CollectValues(rows, UserKeys);
    var missionPools := CollectValues(rows, PoolKeys);
    var range := DateBounds(rows);
    summary := Summary(|rows|, counts, |users|, |missionPools|, range);
  }

  /** The date range never runs backwards. */
  lemma DateRangeIsOrdered(range: DateRange, rows: seq<Row>)
    requires SpansDates(range, rows) && |rows| > 0
    ensures range.start.value <= range.end.value
  {
    assert range.start.value <= rows[0].seconds <= range.end.value;
  }

  /** What `main` does: fail in its `catch`, stop on no events, or write the CSV and the summary. */
  datatype ExportOutcome = ExportFailed | NoEvents | Exported(rows: seq<Row>, summary: Summary)

  method ExportAnalytics(addresses: Addresses, chain: Chain, render: Render) returns (outcome: ExportOutcome)
    ensures outcome.ExportFailed? <==> ExportRejects(addresses, chain)
    ensures outcome.NoEvents? <==> ExportRows(addresses, chain, render) == Some([])
    ensures outcome.Exported? ==>
      && ExportRows(addresses, chain, render) == Some(outcome.rows)
      && |outcome.rows| > 0
      && Summarises(outcome.summary, outcome.rows)
  {
    var rows := ExportRows(addresses, chain, render);
    if rows.None? {
      return ExportFailed;
    }
    if |rows.value| == 0 {
      return NoEvents;
    }
    var summary := Summarize(rows.value);
    outcome := Exported(rows.value, summary);
  }
}

=== FILE: jobs.dfy ===
/**
 * The jobs that travel through the one `tasks` queue: a job is a name and a
 * payload, and the queue is the append-only sequence of jobs written so far.
 */
module Jobs {
  import opened Options

  /** The three names the worker has a `case` for. */
  const HandleLineEvent: string := "handle-line-event"
  const SettleMission: string := "settle-mission"
  const SendReminder: string := "send-reminder"

  const HandledNames: set<string> := {HandleLineEvent, SettleMission, SendReminder}

  /** Where a LINE event came from; only ever logged. */
  datatype Source = Source(userId: Option<string>, groupId: Option<string>)

  /** The `message` object of a LINE message event. */
  datatype MessageContent = MessageContent(messageType: string, text: string)

  /** A LINE webhook event as delivered in `req.body.events`; a job payload may lack `source`. */
  datatype LineEvent = LineEvent(
    eventType: string,
    source: Option<Source>,
    message: Option<MessageContent>,
    replyToken: string)

  /**
   * The `data` of a job; `OtherData` is any object without the fields the
   * worker reads, `NoData` is a null `data`, which cannot be destructured.
   */
  datatype Payload =
    | EventData(event: LineEvent)
    | MissionData(missionId: string)
    | ReminderData(userId: string, message: string)
    | OtherData
    | NoData

  datatype Job = Job(name: string, data: Payload)

  type Queue = seq<Job>

  /**
   * The events whose handling logs their sender: follow, join, and a text
   * message. Each of them reads `event.source`.
   */
  predicate ReadsSource(e: LineEvent) {
    || e.eventType == "follow"
    || e.eventType == "join"
    || (e.eventType == "message" && e.message.Some? && e.message.value.messageType == "text")
  }

  /**
   * What the LINE platform guarantees of an event: a message event carries
   * its message, and an event whose sender is logged carries its source.
   */
  predicate WellFormedEvent(e: LineEvent) {
    && (e.eventType == "message" ==> e.message.Some?)
    && (ReadsSource(e) ==> e.source.Some?)
  }

}

=== FILE: options.dfy ===
/**
 * Optional values (JavaScript's `null`/`undefined` next to a present value)
 * and the result of a call that may throw.
 */
module Options {

  datatype Option<+T> = None | Some(value: T)

  /** A value, or the message of the `Error` thrown instead of returning one. */
  datatype Result<+T> = Ok(value: T) | Thrown(message: string)

}

=== FILE: pipeline.dfy ===
/**
 * Producers and worker together: every job name the webhook route and the
 * cron tick enqueue selects a non-default arm of the worker's `switch`. The
 * webhook's jobs complete when their events are well formed and LINE accepts
 * the replies; the tick's jobs complete whatever LINE answers.
 */
module Pipeline {
  import opened Options
  import opened Jobs
  import Worker
  import Webhook
  import Scheduler

  /** A job the worker dispatches to a named case. */
  predicate Handled(job: Job) {
    Worker.ArmOf(job.name) != Worker.DefaultArm
  }

  /**
   * Every job a webhook request enqueues is handled by name and carries one
   * of the batch's events, whatever the events hold. A job whose event is
   * well formed completes when LINE accepts the reply, and when LINE rejects
   * it exactly the text-message jobs fail.
   */
  lemma WebhookJobsAreHandled(queue: Queue, events: seq<LineEvent>, accepted: seq<bool>)
    requires |accepted| == |events|
    ensures var q := Webhook.Receive(queue, events, accepted).queue;
            forall k :: |queue| <= k < |q| ==>
              Handled(q[k]) && q[k].data.EventData? && q[k].data.event in events
    ensures var q := Webhook.Receive(queue, events, accepted).queue;
            forall k :: |queue| <= k < |q| && q[k].data.EventData? && WellFormedEvent(q[k].data.event) ==>
              && Worker.Completes(q[k], true)
              && (Worker.Completes(q[k], false) <==> !Worker.IsTextMessage(q[k].data))
  {
    var w := Webhook.Written(events, accepted);
    var q := Webhook.Receive(queue, events, accepted).queue;
    assert q == queue + w;
    forall k | |queue| <= k < |q|
      ensures Handled(q[k]) && q[k].data.EventData? && q[k].data.event in events
    {
      assert q[k] == w[k - |queue|];
      assert q[k] in w;
      var i :| 0 <= i < |events| && accepted[i] && q[k] == Webhook.EventJob(events[i]);
    }
  }

  /**
   * Every job the cron ticks enqueue is handled by name and completes,
   * whatever the broker answers; it makes no reply, so LINE's answer is moot.
   */
  lemma TickJobsAreHandled(queue: Queue, replies: seq<(Scheduler.BrokerReply, Scheduler.BrokerReply)>)
    ensures var q := Scheduler.Ticks(queue, replies);
            forall k :: |queue| <= k < |q| ==> Handled(q[k]) && Worker.Completes(q[k], false)
  {
    var q := Scheduler.Ticks(queue, replies);
    Scheduler.TicksAppend(queue, replies);
    Scheduler.AddsMembers(replies);
    var added := Scheduler.TicksAdd(replies);
    forall k | |queue| <= k < |q|
      ensures Handled(q[k]) && Worker.Completes(q[k], false)
    {
      assert q[k] == added[k - |queue|];
    }
  }

  /**
   * End to end: a text message "hi" with reply token "T1" arriving at the
   * webhook becomes one `handle-line-event` job holding the event unchanged,
   * and processing that job replies "You said: hi" with token "T1".
   */
  lemma EchoScenario(queue: Queue)
    ensures var e := LineEvent("message", Some(Source(Some("U1"), None)), Some(MessageContent("text", "hi")), "T1");
            var r := Webhook.Receive(queue, [e], [true]);
            && r.response == Webhook.Json([Webhook.Null])
            && r.queue == queue + [Job(HandleLineEvent, EventData(e))]
            && Worker.Dispatch(r.queue[|queue|]) == Worker.Reply("T1", Worker.TextMessage("You said: hi"))
  {
    var e := LineEvent("message", Some(Source(Some("U1"), None)), Some(MessageContent("text", "hi")), "T1");
    var r := Webhook.Receive(queue, [e], [true]);
    assert Webhook.Written([e], [true]) == [Webhook.EventJob(e)];
    assert r.queue[|queue|] == Job(HandleLineEvent, EventData(e));
  }

  /** The reminder example payload is processed without error and without a reply. */
  lemma ReminderScenario()
    ensures Worker.Dispatch(Scheduler.ReminderJob) == Worker.NoAction
    ensures Worker.Dispatch(Scheduler.SettleJob) == Worker.NoAction
  {
  }

}

=== FILE: scheduler.dfy ===
/**
 * The cron tick (every minute): two awaited enqueues, `settle-mission` then
 * `send-reminder`, with fixed example payloads. A rejected `await` ends the
 * tick, so the second enqueue is not attempted when the first one fails. The
 * tick keeps no state between runs.
 */
module Scheduler {
  import opened Jobs

  const ExampleMissionId: string := "mission_123"
  const ExampleUserId: string := "user_abc"
  const ReminderText: string := "Your deposit is due in 24 hours!"

  const SettleJob: Job := Job(SettleMission, MissionData(ExampleMissionId))
  const ReminderJob: Job := Job(SendReminder, ReminderData(ExampleUserId, ReminderText))

  /** The broker's answer to one `queue.add`. */
  datatype BrokerReply = Accepted | Rejected

  /** The queue after one tick, and whether the tick's callback ran to its end. */
  datatype TickResult = TickResult(queue: Queue, finished: bool)

  /** The jobs one tick adds, given the broker's answers to its first and (if attempted) second enqueue. */
  function TickAdds(first: BrokerReply, second: BrokerReply): (added: seq<Job>)
    ensures first == Rejected ==> added == []
    ensures first == Accepted ==> |added| >= 1 && added[0] == SettleJob
    ensures |added| <= 2
    ensures |added| == 2 <==> first == Accepted && second == Accepted
    ensures forall k :: 0 <= k < |added| ==> added[k] == [SettleJob, ReminderJob][k]
  {
    match first
    case Rejected => []
    case Accepted =>
      match second
      case Rejected => [SettleJob]
      case Accepted => [SettleJob, ReminderJob]
  }

  /** One tick: the queue after it, and whether its callback ran to the end. */
  function Tick(queue: Queue, first: BrokerReply, second: BrokerReply): (r: TickResult)
    ensures queue <= r.queue
    ensures first == Rejected ==> r.queue == queue && !r.finished
    ensures r.finished <==> first == Accepted && second == Accepted
    ensures r.finished ==> r.queue == queue + [SettleJob, ReminderJob]
  {
    var added := TickAdds(first, second);
    TickResult(queue + added, |added| == 2)
  }

  /** Consecutive ticks; `replies[i]` holds the broker's answers during tick i. */
  function Ticks(queue: Queue, replies: seq<(BrokerReply, BrokerReply)>): (q: Queue)
    ensures queue <= q
    ensures |q| <= |queue| + 2 * |replies|
    decreases |replies|
  {
    if replies == [] then queue
    else Ticks(Tick(queue, replies[0].0, replies[0].1).queue, replies[1..])
  }

  /** The jobs a run of ticks adds, tick by tick. */
  function TicksAdd(replies: seq<(BrokerReply, BrokerReply)>): seq<Job>
    decreases |replies|
  {
    if replies == [] then []
    else TickAdds(replies[0].0, replies[0].1) + TicksAdd(replies[1..])
  }

  /** Ticks only append: the queue grows by what each tick adds, in tick order. */
  lemma {:induction false} TicksAppend(queue: Queue, replies: seq<(BrokerReply, BrokerReply)>)
    ensures Ticks(queue, replies) == queue + TicksAdd(replies)
    decreases |replies|
  {
    if replies != [] {
      var next := Tick(queue, replies[0].0, replies[0].1).queue;
      TicksAppend(next, replies[1..]);
      assert next == queue + TickAdds(replies[0].0, replies[0].1);
    }
  }

  predicate EveryEnqueueAccepted(replies: seq<(BrokerReply, BrokerReply)>) {
    forall i :: 0 <= i < |replies| ==> replies[i] == (Accepted, Accepted)
  }

  /**
   * No state and no deduplication: n ticks whose enqueues all succeed add
   * 2n jobs, n identical settle-mission jobs and n identical send-reminder
   * jobs, alternating.
   */
  lemma {:induction false} TicksRepeatThePlan(queue: Queue, replies: seq<(BrokerReply, BrokerReply)>)
    requires EveryEnqueueAccepted(replies)
    ensures var added := Ticks(queue, replies)[|queue|..];
            && |added| == 2 * |replies|
            && multiset(added)[SettleJob] == |replies|
            && multiset(added)[ReminderJob] == |replies|
            && forall k :: 0 <= k < |added| ==> added[k] == (if k % 2 == 0 then SettleJob else ReminderJob)
  {
    TicksAppend(queue, replies);
    assert Ticks(queue, replies)[|queue|..] == TicksAdd(replies);
    AllAcceptedAdds(replies);
    AllAcceptedAlternate(replies);
  }

  lemma {:induction false} AllAcceptedAdds(replies: seq<(BrokerReply, BrokerReply)>)
    requires EveryEnqueueAccepted(replies)
    ensures var added := TicksAdd(replies);
            && |added| == 2 * |replies|
            && multiset(added)[SettleJob] == |replies|
            && multiset(added)[ReminderJob] == |replies|
    decreases |replies|
  {
    if replies != [] {
      assert replies[0] == (Accepted, Accepted);
      assert EveryEnqueueAccepted(replies[1..]) by {
        forall i | 0 <= i < |replies[1..]| ensures replies[1..][i] == (Accepted, Accepted) {
          assert replies[1..][i] == replies[i + 1];
        }
      }
      AllAcceptedAdds(replies[1..]);
      var rest := TicksAdd(replies[1..]);
      assert TicksAdd(replies) == [SettleJob, ReminderJob] + rest;
      assert SettleJob != ReminderJob;
      assert multiset(TicksAdd(replies)) == multiset{SettleJob, ReminderJob} + multiset(rest);
    }
  }

  /** Within the run of fully accepted ticks, every settlement is directly followed by its reminder. */
  lemma {:induction false} AllAcceptedAlternate(replies: seq<(BrokerReply, BrokerReply)>)
    requires EveryEnqueueAccepted(replies)
    ensures var added := TicksAdd(replies);
            && |added| == 2 * |replies|
            && forall k :: 0 <= k < |added| ==> added[k] == (if k % 2 == 0 then SettleJob else ReminderJob)
    decreases |replies|
  {
    if replies != [] {
      assert replies[0] == (Accepted, Accepted);
      assert EveryEnqueueAccepted(replies[1..]) by {
        forall i | 0 <= i < |replies[1..]| ensures replies[1..][i] == (Accepted, Accepted) {
          assert replies[1..][i] == replies[i + 1];
        }
      }
      AllAcceptedAlternate(replies[1..]);
      var rest := TicksAdd(replies[1..]);
      var added := TicksAdd(replies);
      assert added == [SettleJob, ReminderJob] + rest;
      forall k | 0 <= k < |added|
        ensures added[k] == (if k % 2 == 0 then SettleJob else ReminderJob)
      {
        if k >= 2 {
          assert added[k] == rest[k - 2];
          assert (k - 2) % 2 == k % 2;
        }
      }
    }
  }

  /**
   * Whatever the broker answers, each tick adds at most one reminder and only
   * after its settlement job, so reminders never outnumber settlements and
   * neither exceeds the number of ticks.
   */
  lemma {:induction false} RemindersFollowSettlements(queue: Queue, replies: seq<(BrokerReply, BrokerReply)>)
    ensures var added := Ticks(queue, replies)[|queue|..];
            && multiset(added)[ReminderJob] <= multiset(added)[SettleJob] <= |replies|
            && forall k :: 0 <= k < |added| ==> added[k] in {SettleJob, ReminderJob}
  {
    TicksAppend(queue, replies);
    assert Ticks(queue, replies)[|queue|..] == TicksAdd(replies);
    AddsAreSettleThenRemind(replies);
  }

  lemma {:induction false} AddsAreSettleThenRemind(replies: seq<(BrokerReply, BrokerReply)>)
    ensures var added := TicksAdd(replies);
            && multiset(added)[ReminderJob] <= multiset(added)[SettleJob] <= |replies|
            && forall k :: 0 <= k < |added| ==> added[k] == SettleJob || added[k] == ReminderJob
  {
    AddsCount(replies);
    AddsMembers(replies);
  }

  lemma {:induction false} AddsCount(replies: seq<(BrokerReply, BrokerReply)>)
    ensures var added := TicksAdd(replies);
            multiset(added)[ReminderJob] <= multiset(added)[SettleJob] <= |replies|
    decreases |replies|
  {
    if replies != [] {
      var step := TickAdds(replies[0].0, replies[0].1);
      AddsCount(replies[1..]);
      var rest := TicksAdd(replies[1..]);
      assert TicksAdd(replies) == step + rest;
      assert multiset(step + rest) == multiset(step) + multiset(rest);
      assert SettleJob != ReminderJob;
      if step == [SettleJob, ReminderJob] {
        assert multiset(step) == multiset{SettleJob, ReminderJob};
      } else if step == [SettleJob] {
        assert multiset(step) == multiset{SettleJob};
      } else {
        assert step == [];
      }
    }
  }

  lemma {:induction false} AddsMembers(replies: seq<(BrokerReply, BrokerReply)>)
    ensures forall k :: 0 <= k < |TicksAdd(replies)| ==>
              TicksAdd(replies)[k] == SettleJob || TicksAdd(replies)[k] == ReminderJob
    decreases |replies|
  {
    if replies != [] {
      var step := TickAdds(replies[0].0, replies[0].1);
      AddsMembers(replies[1..]);
      var rest := TicksAdd(replies[1..]);
      var added := TicksAdd(replies);
      assert added == step + rest;
      forall k | 0 <= k < |added|
        ensures added[k] == SettleJob || added[k] == ReminderJob
      {
        if k >= |step| {
          assert added[k] == rest[k - |step|];
          assert rest[k - |step|] == SettleJob || rest[k - |step|] == ReminderJob;
        } else if k == 0 {
          assert added[k] == step[0] == SettleJob;
        } else {
          assert added[k] == step[1] == ReminderJob;
        }
      }
    }
  }

}

=== FILE: storage.dfy ===
/** The browser's `localStorage`, as a finite map from keys to stored strings. */
module Storage {
  import opened Options

  type Store = map<string, string>

  /** `localStorage.getItem(key)`: the stored string, or null when the key is absent. */
  function GetItem(store: Store, key: string): (r: Option<string>)
    ensures r.Some? <==> key in store
    ensures r.Some? ==> r.value == store[key]
  {
    if key in store then Some(store[key]) else None
  }

  /** `localStorage.setItem(key, value)`: only `key` changes. */
  function SetItem(store: Store, key: string, value: string): (r: Store)
    ensures GetItem(r, key) == Some(value)
    ensures forall k :: k != key ==> GetItem(r, k) == GetItem(store, k)
  {
    store[key := value]
  }

  /** `localStorage.removeItem(key)`: only `key` changes. */
  function RemoveItem(store: Store, key: string): (r: Store)
    ensures GetItem(r, key) == None
    ensures forall k :: k != key ==> GetItem(r, k) == GetItem(store, k)
  {
    store - {key}
  }

}

=== FILE: theme.dfy ===
/**
 * The theme context: an `isDark` flag, the `dark` class on the document's
 * root element and the `darkMode` entry of `localStorage`. The mount effect
 * restores a saved flag; `toggleDark` flips the flag, toggles the class and
 * stores the new flag as JSON.
 */
module Theme {
  import opened Options
  import opened Storage

  const DarkModeKey: string := "darkMode"
  const DarkClass: string := "dark"

  /**
   * What `JSON.parse` makes of a stored string, as far as the provider can
   * tell: the truthiness of the parsed value, or a thrown SyntaxError.
   */
  datatype ParsedFlag = Parsed(truthy: bool) | Malformed

  /** `JSON.stringify` of a boolean. */
  function Stringify(b: bool): string {
    if b then "true" else "false"
  }

  /** A JSON parser reads back the two strings `Stringify` writes. */
  predicate ReadsBooleans(parse: string -> ParsedFlag) {
    parse("true") == Parsed(true) && parse("false") == Parsed(false)
  }

  /** The provider's `isDark`, the root element's class list and the storage. */
  datatype ThemeState = ThemeState(isDark: bool, classes: set<string>, store: Store)

  /** First render: `useState(false)`; the class list and storage are whatever the page holds. */
  function Initial(classes: set<string>, store: Store): ThemeState {
    ThemeState(false, classes, store)
  }

  /** The class list shows the flag. */
  predicate InSync(s: ThemeState) {
    DarkClass in s.classes <==> s.isDark
  }

  /** The outcome of the mount effect; `ParseFailed` is the SyntaxError `JSON.parse` throws. */
  datatype MountResult = Mounted(state: ThemeState) | ParseFailed

  /**
   * The mount effect. With no saved entry nothing changes; a saved entry
   * sets the flag and adds or removes the class to match it; an entry
   * `JSON.parse` rejects makes the effect throw.
   */
  function Mount(s: ThemeState, parse: string -> ParsedFlag): (r: MountResult)
    ensures GetItem(s.store, DarkModeKey).None? ==> r == Mounted(s)
    ensures r.ParseFailed? <==>
      GetItem(s.store, DarkModeKey).Some? && parse(GetItem(s.store, DarkModeKey).value).Malformed?
    ensures r.Mounted? && GetItem(s.store, DarkModeKey).Some? ==>
      && r.state.isDark == parse(GetItem(s.store, DarkModeKey).value).truthy
      && InSync(r.state)
    ensures r.Mounted? ==> r.state.classes - {DarkClass} == s.classes - {DarkClass}
    ensures r.Mounted? ==> r.state.store == s.store
  {
    match GetItem(s.store, DarkModeKey)
    case None => Mounted(s)
    case Some(saved) =>
      match parse(saved)
      case Malformed => ParseFailed
      case Parsed(dark) =>
        Mounted(ThemeState(dark, if dark then s.classes + {DarkClass} else s.classes - {DarkClass}, s.store))
  }

  /** `classList.toggle('dark')`. */
  function ToggleClass(classes: set<string>): (r: set<string>)
    ensures DarkClass in r <==> DarkClass !in classes
    ensures r - {DarkClass} == classes - {DarkClass}
  {
    if DarkClass in classes then classes - {DarkClass} else classes + {DarkClass}
  }

  /** `toggleDark()`. */
  function Toggle(s: ThemeState): (r: ThemeState)
    ensures r.isDark == !s.isDark
    ensures DarkClass in r.classes <==> DarkClass !in s.classes
    ensures r.classes - {DarkClass} == s.classes - {DarkClass}
    ensures GetItem(r.store, DarkModeKey) == Some(Stringify(r.isDark))
    ensures forall k :: k != DarkModeKey ==> GetItem(r.store, k) == GetItem(s.store, k)
  {
    var newIsDark := !s.isDark;
    ThemeState(newIsDark, ToggleClass(s.classes), SetItem(s.store, DarkModeKey, Stringify(newIsDark)))
  }

  /** Toggling twice restores the flag and the class list. */
  lemma ToggleTwiceRestores(s: ThemeState)
    ensures Toggle(Toggle(s)).isDark == s.isDark
    ensures Toggle(Toggle(s)).classes == s.classes
  {
    var c := Toggle(Toggle(s)).classes;
    assert c - {DarkClass} == s.classes - {DarkClass};
    assert DarkClass in c <==> DarkClass in s.classes;
  }

  /**
   * Toggling keeps the class list in step with the flag, and out of step
   * when it already was: the class is toggled rather than set from the flag.
   */
  lemma ToggleKeepsSync(s: ThemeState)
    ensures InSync(Toggle(s)) <==> InSync(s)
  {
  }

  /**
   * A toggled choice survives a reload: a fresh provider mounting over the
   * stored entry, whatever class list the new page starts with, restores
   * the toggled flag with the class in step.
   */
  lemma ToggledChoiceSurvivesReload(s: ThemeState, pageClasses: set<string>, parse: string -> ParsedFlag)
    requires ReadsBooleans(parse)
    ensures var t := Toggle(s);
            var r := Mount(Initial(pageClasses, t.store), parse);
            r.Mounted? && r.state.isDark == t.isDark && InSync(r.state)
  {
    var t := Toggle(s);
    assert GetItem(t.store, DarkModeKey) == Some(Stringify(t.isDark));
  }

  /** What `useTheme` hands a component. */
  datatype ThemeContext = ThemeContext(isDark: bool)

  const UseThemeOutsideProvider: string := "useTheme must be used within a ThemeProvider"

  /** `useTheme()`: the nearest provider's value; outside any provider the hook throws. */
  function UseTheme(provided: Option<ThemeContext>): (r: Result<ThemeContext>)
    ensures r.Thrown? <==> provided.None?
    ensures r.Thrown? ==> r.message == UseThemeOutsideProvider
    ensures r.Ok? ==> r.value == provided.value
  {
    match provided
    case None => Thrown(UseThemeOutsideProvider)
    case Some(ctx) => Ok(ctx)
  }

}

=== FILE: wallet.dfy ===
/**
 * The wallet context: the connected `account`, the provider's own `loading`
 * flag and the `walletAccount` entry of `localStorage`. Two effects keep the
 * entry in step with the account: one restores a saved account on mount, the
 * other writes the account (or removes the entry) whenever it changes. Both
 * tests are on truthiness, so an empty account string is never stored or
 * restored.
 *
 * The Dapp Portal SDK is outside the model: whether it is ready, whether it is
 * still loading, its error, and what the wallet answers to
 * `kaia_requestAccounts` are parameters.
 */
module Wallet {
  import opened Options
  import opened Storage

  const AccountKey: string := "walletAccount"

  datatype WalletState = WalletState(account: Option<string>, loading: bool, store: Store)

  /** `if (account)`: null and the empty string are falsy. */
  predicate Truthy(account: Option<string>) {
    account.Some? && account.value != ""
  }

  /** The stored entry matches the account: its value when truthy, absent otherwise. */
  predicate Persisted(s: WalletState) {
    GetItem(s.store, AccountKey) == (if Truthy(s.account) then s.account else None)
  }

  /** The `[account]` effect: write a truthy account, remove the entry otherwise. */
  function Persist(account: Option<string>, store: Store): (r: Store)
    ensures GetItem(r, AccountKey) == (if Truthy(account) then account else None)
    ensures forall k :: k != AccountKey ==> GetItem(r, k) == GetItem(store, k)
  {
    if Truthy(account) then SetItem(store, AccountKey, account.value) else RemoveItem(store, AccountKey)
  }

  /** `setAccount(a)` and the re-render it causes; the effect re-runs only when the value changed. */
  function SetAccount(s: WalletState, a: Option<string>): (r: WalletState)
    ensures r.account == a && r.loading == s.loading
    ensures a != s.account ==> Persisted(r)
    ensures Persisted(s) ==> Persisted(r)
    ensures forall k :: k != AccountKey ==> GetItem(r.store, k) == GetItem(s.store, k)
  {
    if a == s.account then s else s.(account := a, store := Persist(a, s.store))
  }

  /**
   * Mounting the provider over `store`. The first commit runs the load
   * effect (which reads the saved account and schedules it) and then the
   * persist effect with the initial null account, which removes the entry;
   * the re-render with the restored account writes it back.
   */
  function Mount(store: Store): (r: WalletState)
    ensures !r.loading
    ensures r.account == (if Truthy(GetItem(store, AccountKey)) then GetItem(store, AccountKey) else None)
    ensures Persisted(r)
    ensures Truthy(GetItem(store, AccountKey)) ==> r.store == store
    ensures forall k :: k != AccountKey ==> GetItem(r.store, k) == GetItem(store, k)
  {
    var initial := WalletState(None, true, store);
    var saved := GetItem(store, AccountKey);
    var firstCommit := initial.(loading := false, store := Persist(initial.account, initial.store));
    var r := if Truthy(saved) then SetAccount(firstCommit, saved) else firstCommit;
    assert Truthy(saved) ==> r.store == store by {
      if Truthy(saved) {
        assert r.store.Keys == store.Keys;
      }
    }
    r
  }

  /** The wallet's answer to `kaia_requestAccounts`: a list (possibly null), or a thrown error. */
  datatype AccountsReply = Accounts(accounts: Option<seq<string>>) | RequestFailed

  datatype ConnectResult = ConnectResult(state: WalletState, connected: bool)

  /** `connectWallet()`: `sdkReady` is whether the SDK handle is non-null. */
  function ConnectWallet(s: WalletState, sdkReady: bool, reply: AccountsReply): (r: ConnectResult)
    ensures r.connected <==>
      sdkReady && reply.Accounts? && reply.accounts.Some? && |reply.accounts.value| > 0
    ensures r.connected ==> r.state.account == Some(reply.accounts.value[0])
    ensures !r.connected ==> r.state == s
    ensures r.state.loading == s.loading
    ensures Persisted(s) ==> Persisted(r.state)
  {
    if !sdkReady then ConnectResult(s, false)
    else
      match reply
      case RequestFailed => ConnectResult(s, false)
      case Accounts(accounts) =>
        if accounts.Some? && |accounts.value| > 0 then ConnectResult(SetAccount(s, Some(accounts.value[0])), true)
        else ConnectResult(s, false)
  }

  /** `disconnectWallet()`. */
  function DisconnectWallet(s: WalletState): (r: WalletState)
    ensures r.account == None && r.loading == s.loading
    ensures Persisted(s) ==> GetItem(r.store, AccountKey) == None
  {
    SetAccount(s, None)
  }

  /** What a component can do to the provider after mount. */
  datatype Action = Connect(sdkReady: bool, reply: AccountsReply) | Disconnect

  function Apply(s: WalletState, a: Action): WalletState {
    match a
    case Connect(sdkReady, reply) => ConnectWallet(s, sdkReady, reply).state
    case Disconnect => DisconnectWallet(s)
  }

  function Run(s: WalletState, actions: seq<Action>): WalletState
    decreases |actions|
  {
    if actions == [] then s else Run(Apply(s, actions[0]), actions[1..])
  }

  /** Once mounted, the stored entry matches the account after any sequence of connects and disconnects. */
  lemma {:induction false} StorageFollowsAccount(store: Store, actions: seq<Action>)
    ensures Persisted(Run(Mount(store), actions))
  {
    RunKeepsPersisted(Mount(store), actions);
  }

  lemma {:induction false} RunKeepsPersisted(s: WalletState, actions: seq<Action>)
    requires Persisted(s)
    ensures Persisted(Run(s, actions))
    decreases |actions|
  {
    if actions != [] {
      RunKeepsPersisted(Apply(s, actions[0]), actions[1..]);
    }
  }

  /** The value the provider exposes; `loading` is the provider's own flag or the SDK's. */
  datatype WalletContext = WalletContext(account: Option<string>, loading: bool, error: Option<string>)

  function ContextValue(s: WalletState, sdkLoading: bool, sdkError: Option<string>): (v: WalletContext)
    ensures v.account == s.account && v.error == sdkError
    ensures v.loading <==> s.loading || sdkLoading
  {
    WalletContext(s.account, s.loading || sdkLoading, sdkError)
  }

  /** After mount the exposed `loading` is exactly the SDK's. */
  lemma MountedLoadingIsSdkLoading(store: Store, sdkLoading: bool, sdkError: Option<string>)
    ensures ContextValue(Mount(store), sdkLoading, sdkError).loading == sdkLoading
  {
  }

  const UseWalletOutsideProvider: string := "useWallet must be used within a WalletProvider"

  /** `useWallet()`: the nearest provider's value; outside any provider the hook throws. */
  function UseWallet(provided: Option<WalletContext>): (r: Result<WalletContext>)
    ensures r.Thrown? <==> provided.None?
    ensures r.Thrown? ==> r.message == UseWalletOutsideProvider
    ensures r.Ok? ==> r.value == provided.value
  {
    match provided
    case None => Thrown(UseWalletOutsideProvider)
    case Some(ctx) => Ok(ctx)
  }

}

=== FILE: webhook.dfy ===
/**
 * The `POST /webhook/line` route: one `handle-line-event` enqueue per event,
 * all started together and joined with `Promise.all`; the response is the
 * list of per-event `null`s, or status 500 with an empty body as soon as any
 * enqueue rejects. Enqueues that the broker accepted stay in the queue even
 * when the request as a whole answers 500.
 *
 * The broker's answer to each enqueue is a parameter (`accepted[i]` for the
 * i-th event). The model appends the accepted jobs in event order, which is
 * one admissible interleaving. The clauses that fix an order describe that
 * interleaving only; the count, membership and multiset clauses hold for
 * every interleaving.
 */
module Webhook {
  import opened Jobs

  datatype Null = Null

  /** `res.json(result)` with one `null` per event, or `res.status(500).end()`. */
  datatype Response = Json(results: seq<Null>) | ServerError

  datatype WebhookResult = WebhookResult(queue: Queue, response: Response)

  /** The job `handleEvent` enqueues for one event: the event is carried unchanged. */
  function EventJob(e: LineEvent): Job {
    Job(HandleLineEvent, EventData(e))
  }

  /** The enqueue calls one request issues, in the order of `events`. */
  function Calls(events: seq<LineEvent>): (calls: seq<Job>)
    ensures |calls| == |events|
    ensures forall i :: 0 <= i < |events| ==> calls[i] == EventJob(events[i])
  {
    if events == [] then [] else [EventJob(events[0])] + Calls(events[1..])
  }

  predicate AllAccepted(accepted: seq<bool>) {
    forall i :: 0 <= i < |accepted| ==> accepted[i]
  }

  /** The number of enqueues the broker accepted. */
  function CountAccepted(accepted: seq<bool>): (n: nat)
    ensures n <= |accepted|
  {
    if accepted == [] then 0
    else (if accepted[0] then 1 else 0) + CountAccepted(accepted[1..])
  }

  /** All answers are acceptances exactly when their count is the number of calls. */
  lemma {:induction false} CountAcceptedIsTotal(accepted: seq<bool>)
    ensures CountAccepted(accepted) == |accepted| <==> AllAccepted(accepted)
  {
    if accepted != [] {
      CountAcceptedIsTotal(accepted[1..]);
      if !accepted[0] {
        assert CountAccepted(accepted) <= |accepted[1..]|;
      }
    }
  }

  /** The jobs that reach the queue: those whose enqueue the broker accepted. */
  function Written(events: seq<LineEvent>, accepted: seq<bool>): (w: seq<Job>)
    requires |accepted| == |events|
    ensures |w| == CountAccepted(accepted)
    ensures forall j :: j in w <==> exists i :: 0 <= i < |events| && accepted[i] && j == EventJob(events[i])
    ensures AllAccepted(accepted) ==> w == Calls(events)
    ensures forall j :: j in w ==> j.name == HandleLineEvent
  {
    if events == [] then []
    else
      var rest := Written(events[1..], accepted[1..]);
      assert AllAccepted(accepted) ==> AllAccepted(accepted[1..]);
      assert forall i :: 0 < i < |events| ==> events[1..][i - 1] == events[i] && accepted[1..][i - 1] == accepted[i];
      if accepted[0] then [EventJob(events[0])] + rest else rest
  }

  function Nulls(n: nat): (r: seq<Null>)
    ensures |r| == n
  {
    seq(n, _ => Null)
  }

  /** One webhook request carrying `events`, against a queue that already holds `queue`. */
  function Receive(queue: Queue, events: seq<LineEvent>, accepted: seq<bool>): (r: WebhookResult)
    requires |accepted| == |events|
    ensures |r.queue| == |queue| + CountAccepted(accepted)
    ensures r.queue[..|queue|] == queue
    ensures r.queue == queue + Written(events, accepted)
    ensures AllAccepted(accepted) ==> multiset(r.queue[|queue|..]) == multiset(Calls(events))
    ensures r.response.Json? <==> AllAccepted(accepted)
    ensures r.response.Json? ==> |r.response.results| == |events|
    ensures events == [] ==> r == WebhookResult(queue, Json([]))
  {
    var w := Written(events, accepted);
    assert (queue + w)[|queue|..] == w;
    WebhookResult(queue + w, if AllAccepted(accepted) then Json(Nulls(|events|)) else ServerError)
  }

  /** Only jobs of the batch are written, none more often than the batch holds its event. */
  lemma {:induction false} WrittenIsSubBatch(events: seq<LineEvent>, accepted: seq<bool>)
    requires |accepted| == |events|
    ensures multiset(Written(events, accepted)) <= multiset(Calls(events))
  {
    if events != [] {
      WrittenIsSubBatch(events[1..], accepted[1..]);
      assert Calls(events) == [EventJob(events[0])] + Calls(events[1..]);
    }
  }

  /** Every job a webhook request adds to the queue is named `handle-line-event`. */
  lemma ReceiveAddsOnlyEventJobs(queue: Queue, events: seq<LineEvent>, accepted: seq<bool>)
    requires |accepted| == |events|
    ensures var r := Receive(queue, events, accepted);
            forall k :: |queue| <= k < |r.queue| ==> r.queue[k].name == HandleLineEvent
  {
    var r := Receive(queue, events, accepted);
    var w := Written(events, accepted);
    assert r.queue == queue + w;
    forall k | |queue| <= k < |r.queue|
      ensures r.queue[k].name == HandleLineEvent
    {
      assert r.queue[k] == w[k - |queue|];
    }
  }

  /**
   * No deduplication: when a request answered 500 after some of its enqueues
   * were accepted, the platform's redelivery of the same batch writes an
   * accepted event a second time as soon as its new enqueue is accepted,
   * whatever happens to the other enqueues.
   */
  lemma RedeliveryDuplicatesAcceptedEvents(
    queue: Queue, events: seq<LineEvent>, accepted: seq<bool>, redelivered: seq<bool>, i: nat)
    requires |accepted| == |events| == |redelivered|
    requires i < |events| && accepted[i] && redelivered[i]
    ensures multiset(Receive(Receive(queue, events, accepted).queue, events, redelivered).queue[|queue|..])[EventJob(events[i])] >= 2
  {
    var w1 := Written(events, accepted);
    var w2 := Written(events, redelivered);
    var q1 := Receive(queue, events, accepted).queue;
    var q2 := Receive(q1, events, redelivered).queue;
    assert q1 == queue + w1;
    assert q2 == q1 + w2;
    assert q2[|queue|..] == w1 + w2;
    WrittenTwice(events, accepted, redelivered, i);
  }

  lemma WrittenTwice(events: seq<LineEvent>, accepted: seq<bool>, redelivered: seq<bool>, i: nat)
    requires |accepted| == |events| == |redelivered|
    requires i < |events| && accepted[i] && redelivered[i]
    ensures multiset(Written(events, accepted) + Written(events, redelivered))[EventJob(events[i])] >= 2
  {
    var job := EventJob(events[i]);
    var w1 := Written(events, accepted);
    var w2 := Written(events, redelivered);
    WrittenContainsAccepted(events, accepted, i);
    WrittenContainsAccepted(events, redelivered, i);
    assert multiset(w1)[job] >= 1;
    assert multiset(w2)[job] >= 1;
    assert multiset(w1 + w2) == multiset(w1) + multiset(w2);
  }

  /** An event whose enqueue was accepted is in the queue. */
  lemma {:induction false} WrittenContainsAccepted(events: seq<LineEvent>, accepted: seq<bool>, i: nat)
    requires |accepted| == |events|
    requires i < |events| && accepted[i]
    ensures EventJob(events[i]) in Written(events, accepted)
  {
    if i > 0 {
      WrittenContainsAccepted(events[1..], accepted[1..], i - 1);
    }
  }

  /**
   * Each job is written once per accepted enqueue that carries it: its
   * multiplicity is the number of accepted indices whose event gives that
   * job. Like membership, this holds for every interleaving.
   */
  lemma WrittenCountsAcceptedEnqueues(events: seq<LineEvent>, accepted: seq<bool>)
    requires |accepted| == |events|
    ensures forall j ::
              multiset(Written(events, accepted))[j]
              == |set i | 0 <= i < |events| && accepted[i] && EventJob(events[i]) == j|
  {
    forall j
      ensures multiset(Written(events, accepted))[j] ==
        |set i | 0 <= i < |events| && accepted[i] && EventJob(events[i]) == j|
    {
      WrittenFromCounts(events, accepted, 0, j);
      assert events[0..] == events && accepted[0..] == accepted;
      assert AcceptedFrom(events, accepted, 0, j) ==
        set i | 0 <= i < |events| && accepted[i] && EventJob(events[i]) == j;
    }
  }

  /** The accepted indices from `lo` on whose event gives job `j`. */
  function AcceptedFrom(events: seq<LineEvent>, accepted: seq<bool>, lo: nat, j: Job): set<int>
    requires |accepted| == |events|
  {
    set i | lo <= i < |events| && accepted[i] && EventJob(events[i]) == j
  }

  lemma {:induction false} WrittenFromCounts(events: seq<LineEvent>, accepted: seq<bool>, lo: nat, j: Job)
    requires |accepted| == |events| && lo <= |events|
    ensures multiset(Written(events[lo..], accepted[lo..]))[j] == |AcceptedFrom(events, accepted, lo, j)|
    decreases |events| - lo
  {
    var here := AcceptedFrom(events, accepted, lo, j);
    if lo == |events| {
      assert here == {};
    } else {
      WrittenFromCounts(events, accepted, lo + 1, j);
      var later := AcceptedFrom(events, accepted, lo + 1, j);
      assert events[lo..][1..] == events[lo + 1..] && accepted[lo..][1..] == accepted[lo + 1..];
      var rest := Written(events[lo + 1..], accepted[lo + 1..]);
      if accepted[lo] {
        assert Written(events[lo..], accepted[lo..]) == [EventJob(events[lo])] + rest;
        if EventJob(events[lo]) == j {
          assert here == {lo} + later;
          assert lo !in later;
        } else {
          assert here == later;
        }
      } else {
        assert Written(events[lo..], accepted[lo..]) == rest;
        assert here == later;
      }
    }
  }

}

=== FILE: worker.dfy ===
/**
 * The worker's job callback: a `switch` on the job name with three cases and
 * a default arm. Processing a job either makes the one LINE reply call, does
 * nothing observable (it only logs), or throws a TypeError on a payload that
 * lacks the fields the `handle-line-event` case reads.
 */
module Worker {
  import opened Options
  import opened Jobs

  const EchoPrefix: string := "You said: "

  /** The reply object `{ type: 'text', text }`. */
  datatype TextMessage = TextMessage(text: string)

  /**
   * Why the callback throws: `job.data` is null, so destructuring it fails,
   * or `job.data.event`, `event.message` or `event.source` is undefined.
   */
  datatype Fault = DataMissing | EventMissing | MessageMissing | SourceMissing

  /**
   * The effect of one run of the callback. `Reply` is the `client.replyMessage`
   * call whose promise the callback returns; `NoAction` is a normal return of
   * `undefined`, so the job completes; `Throws` fails the job.
   */
  datatype Outcome =
    | Reply(replyToken: string, message: TextMessage)
    | NoAction
    | Throws(fault: Fault)

  /** The arm of the `switch` a job name selects; the comparison is `===`. */
  datatype Arm = LineEventArm | SettleArm | ReminderArm | DefaultArm

  function ArmOf(name: string): (a: Arm)
    ensures a == LineEventArm <==> name == HandleLineEvent
    ensures a == SettleArm <==> name == SettleMission
    ensures a == ReminderArm <==> name == SendReminder
    ensures a == DefaultArm <==> name !in HandledNames
  {
    if name == HandleLineEvent then LineEventArm
    else if name == SettleMission then SettleArm
    else if name == SendReminder then ReminderArm
    else DefaultArm
  }

  /** True when the payload is a LINE text message, the one case that is answered. */
  predicate IsTextMessage(data: Payload) {
    && data.EventData?
    && data.event.eventType == "message"
    && data.event.message.Some?
    && data.event.message.value.messageType == "text"
  }

  /**
   * The `handle-line-event` case: follow and join only log, a text message is
   * echoed. Each of the three first logs `event.source`, so an event without
   * one throws before any reply; a message's type is read before its source.
   */
  function HandleEvent(data: Payload): (o: Outcome)
    ensures o.Reply? <==> IsTextMessage(data) && data.event.source.Some?
    ensures o.Reply? ==>
      && o.replyToken == data.event.replyToken
      && |o.message.text| == |EchoPrefix| + |data.event.message.value.text|
      && o.message.text[..|EchoPrefix|] == EchoPrefix
      && o.message.text[|EchoPrefix|..] == data.event.message.value.text
    ensures o.Throws? <==> !(data.EventData? && WellFormedEvent(data.event))
    ensures o == Throws(SourceMissing) <==>
      data.EventData? && ReadsSource(data.event) && data.event.source.None?
  {
    match data
    case EventData(e) =>
      if e.eventType == "follow" || e.eventType == "join" then
        if e.source.None? then Throws(SourceMissing) else NoAction
      else if e.eventType == "message" then
        match e.message
        case None => Throws(MessageMissing)
        case Some(m) =>
          if m.messageType != "text" then NoAction
          else if e.source.None? then Throws(SourceMissing)
          else Reply(e.replyToken, TextMessage(EchoPrefix + m.text))
      else NoAction
    case NoData => Throws(DataMissing)
    case _ => Throws(EventMissing)
  }

  /**
   * One run of the worker callback on `job`. Only `handle-line-event` can
   * reply; settle-mission and send-reminder destructure `job.data` and so
   * throw on a null payload, and otherwise only log; an unknown name never
   * reads the payload and returns normally.
   */
  function Dispatch(job: Job): (o: Outcome)
    ensures o.Reply? <==> job.name == HandleLineEvent && IsTextMessage(job.data) && job.data.event.source.Some?
    ensures o.Reply? ==>
      o == Reply(job.data.event.replyToken,
                 TextMessage(EchoPrefix + job.data.event.message.value.text))
    ensures o.Throws? <==>
      || (job.name == HandleLineEvent && !(job.data.EventData? && WellFormedEvent(job.data.event)))
      || (job.name in {SettleMission, SendReminder} && job.data.NoData?)
    ensures job.name in {SettleMission, SendReminder} ==>
      o == (if job.data.NoData? then Throws(DataMissing) else NoAction)
    ensures job.name !in HandledNames ==> o == NoAction
  {
    match ArmOf(job.name)
    case LineEventArm => HandleEvent(job.data)
    case SettleArm => if job.data.NoData? then Throws(DataMissing) else NoAction
    case ReminderArm => if job.data.NoData? then Throws(DataMissing) else NoAction
    case DefaultArm => NoAction
  }

  /**
   * The job completes, given LINE's answer to the reply if one is made: the
   * callback returns the reply's promise, so a rejected reply fails the job.
   */
  predicate Completes(job: Job, lineAccepts: bool) {
    match Dispatch(job)
    case Throws(_) => false
    case Reply(_, _) => lineAccepts
    case NoAction => true
  }

  /**
   * Follow and join events are acknowledged without a reply, and without an
   * error when they carry their source; logging a missing source throws.
   */
  lemma FollowAndJoinAreSilent(job: Job)
    requires job.name == HandleLineEvent && job.data.EventData?
    requires job.data.event.eventType in {"follow", "join"}
    ensures job.data.event.source.Some? ==> Dispatch(job) == NoAction
    ensures job.data.event.source.None? ==> Dispatch(job) == Throws(SourceMissing)
  {
  }

  /**
   * A message that is not text (a sticker, an image) gets no reply and raises
   * no error, with or without a source, which this branch never reads.
   */
  lemma NonTextMessageIsIgnored(job: Job)
    requires job.name == HandleLineEvent && job.data.EventData?
    requires job.data.event.eventType == "message" && job.data.event.message.Some?
    requires job.data.event.message.value.messageType != "text"
    ensures Dispatch(job) == NoAction
  {
  }

  /** An unrecognised job name is logged and the job completes with no action. */
  lemma UnknownNameCompletes(job: Job)
    requires job.name !in HandledNames
    ensures Dispatch(job) == NoAction
    ensures forall lineAccepts :: Completes(job, lineAccepts)
  {
  }

}
